=== FILE: README.md ===
# Hotel search core, modelled in Dafny

This project models the hotel-search pipeline of a Node.js back end. The
pipeline resolves a city to its hotel codes, asks an upstream availability
service about those codes in batches, merges what comes back and formats it.
The parts modelled are:

- **Orchestrator** (`CitySearch`, from `controllers/hotelController.js`):
  - input and room checks;
  - cache-aside code lookup;
  - chunks of 10 codes, sent in waves of at most 10 parallel requests with a pause between waves;
  - per-chunk success or failure;
  - the merge and the final result rule.
- **Batch search** (`TboApiService`, from `services/TboApiService.js`):
  - chunks of 100 codes and room normalisation;
  - one request per chunk, failed batches dropped;
  - the city-details lookup.
- **Single availability request** (`TboService`, from `services/tboService.js`):
  - room processing and the payload;
  - the status check and the classification of transport errors.
- **Code lookup** (`HotelModel`, from `models/HotelModel.js`): cache first, then the store, then a one-day cache write.
- **Validator** (`Validator` and `Dates`, from `utils/validator.js`): the error list, strict `YYYY-MM-DD` dates with calendar validity, and `calculateNights`.
- **Formatting** (`Formatting`): the REST controller's and the GraphQL resolver's
  formatting, which differ in price and currency.
- **Front ends** (`SearchEndpoints`): the two front ends' `searchHotels` flows.
- **Index loader** (`RedisLoader`, from `scripts/loadHotelsToRedis.js`): the fold that builds the `hotelname:` and `cityname:` entries.

Shared building blocks:

- `Wrappers`: `Option` and `Result`.
- `Js`: JavaScript property values. `Field` is absent, `null`, or a value. `Typed` is missing, of another type, or of the expected type.
- `Text`: ASCII lower-casing, trimming, comma join and split.
- `Batching`: slicing into chunks, with its arithmetic.
- `Shapes`: the records that cross file boundaries.

The outside world is replaced by parameters:

- The upstream POST is a function from (request index, payload) to reply.
- The SQL query is a function from city to a code list or an error.
- Caches are maps, with error flags where a cache error reaches the caller.
- "Today" is a `Date` argument.

Thrown errors are `Result` failures whose `Message()` is the source's text.
Both `Promise.all` and `Promise.allSettled` keep input order. So a wave is an
ordered sequence of outcomes, and the merge is a fold over it.

Three cross-file facts are proved rather than assumed:

- The two front ends never return a hotel. `TboApiService.searchHotels`
  answers with `HotelSearchResult` only, and both formatters read
  `HotelResultList` (`Formatting.SearchOutputIsNeverFormatted`).
- Rooms written in the validator's `NoOfAdults` convention are sent upstream
  with one adult each (`SearchEndpoints.ValidatedRoomsAreSentWithOneAdult`).
- The two room builders prefer opposite spellings of the adult count
  (`TboApiService.OppositeAdultPreference`).

Where the written description of the system and the code disagree, the model
follows the code:

- The orchestrator returns no failed-chunk count.
- An upstream status 201 is an error, like any status other than 200.
- A child-age count mismatch in `hotelController.js` is only logged.
- Cache-read and store errors reach the caller.
- An empty store result gives `success: false` in the orchestrator. Both front
  ends report it as `success: true` with no data.
- Every chunk succeeding with zero hotels also gives `success: false`.

## Model

| member | source | states |
|---|---|---|
| `Batching.Chunks` | services/TboApiService.js:118-124 | Flattening the chunks gives back the list. There are ceil(L/n) chunks, each non-empty and at most n long, and every chunk but the last is exactly n long. |
| `Batching.ChunkAt` | controllers/hotelController.js:76-79 | Chunk k is the slice of the list from k·n to min(k·n+n, L). |
| `Batching.ChunkSlices` | services/TboApiService.js:120-122 | Every chunk is the slice `array.slice(i, i + size)` for its starting index. |
| `CitySearch.RoomError` | controllers/hotelController.js:30-48 | A room is rejected exactly when it owns neither `Adults` nor `adults`, or when the first truthy of `Adults` and `adults` is missing or below 1. The missing-field error, naming the room's index, is given exactly when the room owns neither field. Child counts and ages never reject. |
| `CitySearch.FirstRoomError` | controllers/hotelController.js:30-40 | No error exactly when every room passes. Otherwise the error is that of some failing room with no failing room before it. |
| `CitySearch.SuccessesAppend` | controllers/hotelController.js:148-150 | Merging two runs of outcomes in turn is the same as merging them together. |
| `CitySearch.FailureIsIsolated` | controllers/hotelController.js:127-162 | Removing a failed chunk's outcome leaves the merged hotels unchanged. |
| `CitySearch.SuccessesEmpty` | controllers/hotelController.js:186-191 | The merge is empty exactly when every chunk failed or succeeded with no hotels. |
| `CitySearch.AllOutcomes` | controllers/hotelController.js:101-141 | There is one outcome per chunk, and chunk k goes out as request `base + k`. |
| `CitySearch.WavesSplit` | controllers/hotelController.js:91-92 | The first wave is the first 10 chunks, and the remaining waves are the waves of the rest. |
| `CitySearch.WavesSendEveryChunk` | controllers/hotelController.js:91-92 | Across the waves, every chunk is sent once, in order. |
| `CitySearch.WaveIndexIsGlobalIndex` | controllers/hotelController.js:101-125 | Chunk `index` of wave w is global chunk `w·10 + index`, the `i + index` the loop records. |
| `CitySearch.OutcomesSplit` | controllers/hotelController.js:101-104 | Splitting the chunk list splits the outcomes, and the second part's numbering continues from the first. |
| `CitySearch.WavesMergeInChunkOrder` | controllers/hotelController.js:122-162 | The merge done wave by wave equals the successful results of all chunks concatenated in global chunk order. |
| `CitySearch.WavePauses` | controllers/hotelController.js:171-175 | The loop runs once per wave and pauses waves − 1 times. |
| `CitySearch.SearchHotelsByCity` | controllers/hotelController.js:14-210 | Missing inputs and bad rooms throw before any cache, store or upstream access. A non-empty cached list skips the store. A miss queries the store once. A non-empty store result is cached as it is. An empty one gives "No hotels found in <city>" with nothing sent. Chunks hold at most 10 codes, and the pauses number ceil(chunks/10) − 1. The reply holds the successful chunks' hotels in chunk order, and it is `success` exactly when that list is non-empty. Valid input with a non-empty cached or stored list always succeeds as a call, and sends exactly the 10-code chunks of that list. |
| `CitySearch.Resolve` | controllers/hotelController.js:51-198 | For valid input: a non-empty cached list is used with no store query and no cache change, a miss queries the store once, and a non-empty list from either source is sent as its 10-code chunks, with the reply a success. |
| `CitySearch.Dispatch` | controllers/hotelController.js:71-198 | The chunks are the 10-code chunks of the codes. The merged hotels decide between `Found` with `totalResults` equal to the hotel count and the "No available hotels" message. |
| `Dates.Parse` | utils/validator.js:76-85 | A parse succeeds only on the `\d{4}-\d{2}-\d{2}` shape, and only with a real calendar date. |
| `Dates.ValidDateIsWrittenDate` | utils/validator.js:76-85 | `isValidDate` holds exactly for the texts that write out a real calendar date as `YYYY-MM-DD`. |
| `Dates.ParseFormat` | utils/validator.js:83-84 | Parsing a written valid date gives the date back. |
| `Dates.FormatParse` | utils/validator.js:80-84 | Writing out a parsed date gives the text back. |
| `Dates.DayNumberOrder` | utils/validator.js:22-34 | Calendar order agrees with the day count, and equal dates have equal counts. |
| `Dates.NextDayNumber` | utils/validator.js:98-101 | The next calendar day is valid and one further on the day count. |
| `Dates.Nights` | utils/validator.js:93-102 | Nights are 0 unless both dates are valid. Otherwise they are positive exactly when check-in comes first, and zero exactly on the same date. |
| `Dates.OneNight` | utils/validator.js:93-102 | A stay from a day to the next day is one night. |
| `Dates.NightsAdd` | utils/validator.js:98-101 | The nights of two consecutive stays add up to the nights of the whole stay. |
| `Text.Trim` | utils/validator.js:13 | Trimming gives the empty string exactly for a blank text. |
| `Text.ToLower` | models/HotelModel.js:8 | Lower-casing keeps the length and lower-cases each character. |
| `Text.SplitJoin` | services/tboService.js:51 | Splitting the comma-join of comma-free codes gives the codes back. |
| `Js.EitherNum` | controllers/hotelController.js:37 | JavaScript `or` of two numbers is truthy exactly when one of the two is. It is the first when that one is truthy, and the second, as it is, otherwise. |
| `TboService.ProcessRoom` | services/tboService.js:31-43 | Each count is the capitalised field if truthy, else the lower-case one, else 1 for adults and 0 for children. The ages are sent only when there are children and a non-empty list, and are `null` otherwise. |
| `TboService.ProcessRooms` | services/tboService.js:31 | There is one processed room per room, in order. |
| `TboService.BuildPayload` | services/tboService.js:48-64 | The payload carries the dates, nationality `IN`, the processed rooms, response time 23, the detailed flag, and the filter block with an empty hotel name. |
| `TboService.HotelCodesRoundTrip` | services/tboService.js:51 | The payload's `HotelCodes` splits back into exactly the codes. |
| `TboService.ErrorDetail` | services/tboService.js:123 | The upstream error detail is never empty. It is the status description when that is non-empty, else the status text when that is non-empty, else "Unknown API error". |
| `TboService.ClassifyClientError` | services/tboService.js:112-131 | Errors are classified in priority order: response data gives the API error, `ECONNREFUSED`/`ENOTFOUND` give unreachable, `ETIMEDOUT` gives timeout, and anything else is a network error carrying the message. The API error carries the error detail of the response. |
| `TboService.CheckResponse` | services/tboService.js:86-109 | A response passes exactly when it has data, a `Status`, and code 200. Any other code fails with its description. Client errors are classified. |
| `TboService.SearchHotelAvailability` | services/tboService.js:17-138 | The call succeeds exactly when the single request built from the arguments gets a 200 reply, and it then returns that body. |
| `TboService.NoRoomsIsError` | services/tboService.js:96-103 | A 201 "no rooms" reply is an error, not an empty success. |
| `TboApiService.NormalizeRoom` | services/TboApiService.js:33-49 | Adults are always at least 1. The first truthy of `adults` and `Adults` is sent, or 1 when neither is truthy, and a value below 1 becomes 1. Children default to 0, and the ages default to `[]`. |
| `TboApiService.NormalizeRooms` | services/TboApiService.js:33 | Normalisation keeps the length and order of the rooms. |
| `TboApiService.CombineAppend` | services/TboApiService.js:105 | Combining two runs of replies in turn is the same as combining them together. |
| `TboApiService.FailedBatchIsDropped` | services/TboApiService.js:88-105 | A rejected batch contributes nothing and removes nothing. |
| `TboApiService.CombineIsDeliveredInOrder` | services/TboApiService.js:103-105 | A batch with data contributes its `HotelSearchResult` between those of the batches before and after it. |
| `TboApiService.Dispatch` | services/TboApiService.js:78-103 | There is one reply per request, and reply k is the transport's answer to request k, in request order as `Promise.all` delivers them. |
| `TboApiService.SearchHotels` | services/TboApiService.js:20-111 | No codes means no request and an empty result. Otherwise there is one request per 100-code chunk, each carrying its chunk comma-joined, the given dates, the normalised rooms, the nationality (default `IN`), response time 23, the detailed flag and an empty filter block. The result is the chunk-order merge of the replies, and it has no `HotelResultList`. |
| `TboApiService.CacheGet` | services/TboApiService.js:13-17 | A client without `get` throws. Otherwise the read finds a list exactly when the key is cached. |
| `TboApiService.GetHotelDetailsByCityAsWritten` | services/TboApiService.js:126-139 | An empty or missing room list throws "Rooms data is required". Every other call throws at the cache read. |
| `TboApiService.GetHotelDetailsByCity` | services/TboApiService.js:126-139 | Rooms are required. The call succeeds exactly when `hotels:<lower-cased city>` holds a non-empty list, with no store fallback, and it then searches exactly those codes. |
| `TboApiService.DetailsAsWrittenThrowsOnCachedCity` | services/TboApiService.js:14 | For a cached city, the corrected lookup searches while the code as written throws. |
| `TboApiService.OppositeAdultPreference` | services/TboApiService.js:35 | With both adult spellings set to different counts of at least 1, the batch search sends `adults` and the single request sends `Adults`. With one spelling set, both send it. |
| `TboApiService.ValidatorRoomsSendOneAdult` | services/TboApiService.js:35 | A room without `Adults` or `adults` is sent with one adult. |
| `TboApiService.ValidatorRoomsNormaliseToOneAdult` | services/TboApiService.js:33-35 | Every room of a list with no truthy adult count is normalised to one adult. |
| `HotelModel.GetHotelCodesByCity` | models/HotelModel.js:6-36 | A cache hit returns the cached codes with no store query. A miss queries the store with the raw city and returns its codes in row order. The cache is written, with a TTL of 86400 s, only for a non-empty list. Cache-read, store and cache-write errors reach the caller. |
| `HotelModel.SecondLookupHitsCache` | models/HotelModel.js:9-14 | After a miss that found codes, a second lookup returns them from the cache without a store query. |
| `HotelModel.CaseInsensitiveKey` | models/HotelModel.js:8 | Cities equal up to letter case share a cache entry. |
| `Validator.CityErrors` | utils/validator.js:13-15 | There is one city error exactly for a missing, non-string or blank city. |
| `Validator.CheckInErrors` | utils/validator.js:18-24 | There is at most one check-in error, decided in the order missing, malformed, before today, and none exactly for a present, valid date that is not before today. |
| `Validator.CheckOutErrors` | utils/validator.js:27-37 | There is at most one check-out error. "Must be after" fires only when both dates are valid and check-out is not later. There is none exactly for a present, valid check-out that is not at or before a valid check-in. |
| `Validator.AgeErrors` | utils/validator.js:56-60 | There is one error per child age outside 0..17, naming that child, in child order. |
| `Validator.RoomErrors` | utils/validator.js:45-61 | A room gets the adults error iff `NoOfAdults` is falsy or below 1. With children, a missing or non-array `ChildAge` is one error and stops the child checks. Otherwise a count mismatch and each bad age are separate errors. The errors come in the order the checks run: adults, then the age list or count, then the ages by child. |
| `Validator.AllRoomErrors` | utils/validator.js:44-62 | Each kind of room error appears for room i exactly when room i breaks that rule, and the errors come room by room in the order of the checks. |
| `Validator.RoomsErrors` | utils/validator.js:40-44 | A missing, non-array or empty room list is one error, and no room is examined. |
| `Validator.ValidateSearchParams` | utils/validator.js:65-68 | `isValid` holds exactly when there are no errors. Every error comes from the city, check-in, check-out or rooms check, and the list is in check order: city, check-in, check-out, the room-list error, then the room errors room by room. Together with the rules below, this fixes the list and the position of each error in it. |
| `Validator.OrderFixesList` | utils/validator.js:10-62 | Two error lists in the order the checks append, each error once, that hold the same errors are the same list. |
| `Validator.ErrorsAreFixedByTheirMembers` | utils/validator.js:8-68 | Any list in check order with the same errors as the validator's is the validator's list, so the rules below fix both its contents and its order. |
| `Validator.ValidParamsArePresent` | utils/validator.js:13-44 | Valid parameters carry a city string, both dates and a non-empty room list. |
| `Validator.CityRule` | utils/validator.js:13-15 | The validated parameters carry the city error exactly for a missing, non-string or blank city. |
| `Validator.CheckInRule` | utils/validator.js:18-24 | Each check-in error appears exactly in its case of the missing, malformed, past chain. |
| `Validator.CheckOutRule` | utils/validator.js:27-37 | Each check-out error appears exactly in its case. The ordering error needs two valid dates. |
| `Validator.RoomsRequiredRule` | utils/validator.js:40-44 | The room-list error appears exactly for a missing, non-array or empty list, and it excludes every per-room error. |
| `Validator.PerRoomRule` | utils/validator.js:44-62 | Adult errors and per-age errors appear for exactly the offending rooms and children. |
| `Validator.ValidMeansAtLeastOneNight` | utils/validator.js:93-102 | Valid parameters describe a stay of at least one night. |
| `Formatting.PriceOf` | controllers/HotelController.js:92-97 | "Price not available" appears exactly when there is no price block. A present offered price is kept by `??`, a truthy one by both front ends, and a missing one falls back to the published price. The resolver's `||` also falls back to the published price for an offered price of 0. |
| `Formatting.PriceDialectsDiffer` | graphql/resolvers.js:108-113 | The REST and GraphQL prices differ exactly for an offered price of 0 beside a published price that is not 0. |
| `Formatting.CurrencyOf` | controllers/HotelController.js:80 | With no price, the currency is "Unknown". A non-empty code is kept. REST gives "Unknown" for a missing or empty code. The resolver passes a price block's code through unchanged, even when it is missing or empty. |
| `Formatting.CurrencyDialectsDiffer` | graphql/resolvers.js:96 | The currencies differ exactly when a price block has a missing or empty currency code. |
| `Formatting.FormatRoomTypes` | controllers/HotelController.js:100-115 | A non-array gives `[]`. Otherwise there is one entry per room type, in order, with its code, name, inclusion, bed type and occupancy. |
| `Formatting.FormatHotel` | controllers/HotelController.js:68-88 | An output hotel carries the hotel's code, name, category, rating, address, city, country, latitude and longitude unchanged. It also carries the front end's price and currency and the formatted room types. Amenities and policies are the source lists when present, else `[]`. Images is `[picture]` for a non-empty picture, else `[]`. |
| `Formatting.FormatSearchResults` | controllers/HotelController.js:63-89 | The result is `[]` unless `HotelResultList` is an array. Otherwise there is one formatted hotel per listed hotel, in order. |
| `Formatting.DialectsAgreeElsewhere` | graphql/resolvers.js:78-105 | Both front ends format the same hotels identically except for price and currency. |
| `Formatting.SearchOutputIsNeverFormatted` | controllers/HotelController.js:40-43 | Whatever the batch search returns, formatting it yields `[]`. |
| `SearchEndpoints.SearchFlow` | controllers/HotelController.js:8-51 | Invalid parameters give the validator's errors with no lookup and no request. Valid ones run exactly the cache-aside lookup of the city. Lookup errors are thrown. An empty code list sends nothing. A search sends exactly the batch search's requests for the codes, dates and rooms given, with no nationality, so every request carries the default `IN`, the validated dates and the normalised rooms. It formats no hotel. |
| `SearchEndpoints.SearchCity` | controllers/HotelController.js:26-51 | Lookup errors are thrown, an empty code list sends nothing, and otherwise the batch search's requests for those codes go out, each with the default nationality, the given dates and the normalised rooms. |
| `SearchEndpoints.RestSearch` | controllers/HotelController.js:8-60 | The status is 400 exactly for invalid parameters, and it carries the validator's errors. It is 500 exactly when the flow throws. A 200 response never carries data. |
| `SearchEndpoints.GraphQLSearch` | graphql/resolvers.js:8-74 | The data is always `[]`. The reply is unsuccessful exactly for invalid parameters or a thrown error, and never propagates an error. |
| `SearchEndpoints.EmptyCityIsSuccess` | controllers/HotelController.js:28-35 | A valid search of a city with no codes is a success with no data from both front ends, and sends nothing. |
| `SearchEndpoints.FrontEndsAgreeOnSuccess` | graphql/resolvers.js:11-72 | The REST and GraphQL front ends succeed on the same inputs. |
| `SearchEndpoints.ValidatedRoomsAreSentWithOneAdult` | graphql/resolvers.js:46-51 | Rooms in the `NoOfAdults` convention reach every request with one adult each. |
| `RedisLoader.Step` | scripts/loadHotelsToRedis.js:19-38 | A row with a missing or empty lower-cased name, city code or city name changes nothing. A kept row overwrites its `hotelname:` entry and adds its code to its `cityname:` list only if absent. Other cities are untouched. |
| `RedisLoader.AppendNew` | scripts/loadHotelsToRedis.js:34-36 | Appending only codes not yet present keeps a list duplicate-free. The old list stays a prefix, and the result holds exactly the old and new codes. |
| `RedisLoader.AppendNewIsDedup` | scripts/loadHotelsToRedis.js:31-37 | Appending new codes to a duplicate-free list equals removing later duplicates from the concatenation. |
| `RedisLoader.DedupKeepsFirstOrder` | scripts/loadHotelsToRedis.js:34-35 | Deduplication keeps codes in the order of their first occurrence. |
| `RedisLoader.NamesAreLastWriteWins` | scripts/loadHotelsToRedis.js:27 | Each `hotelname:` entry holds the code of the last kept row with that name. Names no row sets are unchanged. |
| `RedisLoader.StepCity` | scripts/loadHotelsToRedis.js:30-37 | One row touches only its own city's list. |
| `RedisLoader.CityListIsAppendNew` | scripts/loadHotelsToRedis.js:30-37 | A city's list is the old list with the codes of its kept rows appended in row order, each once. |
| `RedisLoader.CityListsAreDistinct` | scripts/loadHotelsToRedis.js:31-37 | Every city list is duplicate-free and holds exactly the old codes and the city's row codes, in first-insertion order. |
| `RedisLoader.NewKeysComeFromRows` | scripts/loadHotelsToRedis.js:20-30 | Every new key is `hotelname:` or `cityname:` plus a kept row's lower-cased name. |

## Left out

- I/O: HTTP, the cache client, the SQL pool, JSON parsing and serialisation, logging and console output. Stored lists are modelled already parsed.
- Concurrency and time: a wave is an ordered sequence of outcomes. The 1000 ms pause is a count. The HTTP client's error code is taken as given: which code the 30 s client timeout produces is not modelled. Only `ETIMEDOUT` gives the timeout error. Any other code without response data gives the network error.
- Credentials, URLs and the Basic-auth header of both upstream callers.
- `saveHotelDetails` and the table DDL (models/HotelModel.js:38-127): storage only.
- `getCachedHotelCodes` and `cacheHotelCodes`, which `controllers/hotelController.js` imports from `config/redis.js`, are not defined there. The orchestrator's cache is an abstract map keyed by the city as given. `getHotelCodesFromDB` (`config/database.js`) queries by the city as given and rethrows its errors. The orchestrator's abstract `store` function stands for it, and the SQL connection and query are not modelled.
- config/apiConfig.js: constants only. Its retry settings have no behaviour.
- Server, route and GraphQL schema bootstrap (server.js, index.js, routes/hotelRoutes.js, graphql/schema.js, schema/schema.js).
- Numbers are integers: no `NaN`, fractions or numeric strings. Lower-casing covers ASCII letters only, and white space is the JavaScript set.
- Cached values that are not arrays, and upstream fields of unexpected types, are not modelled.
- Room elements are objects. A `null` element makes the validator (utils/validator.js:44-45) and the room normalisers (controllers/hotelController.js:32, services/tboService.js:32, services/TboApiService.js:35) throw. The GraphQL schema's `rooms: [RoomInput]!` (graphql/schema.js:64) admits one.
- RedisLoader.Row: `hotel_code` is a string. A missing code is not modelled.
- Dates.Nights: the contract states the sign and the zero case only. The exact count is fixed by Dates.OneNight and Dates.NightsAdd.

## Findings

| source | as written | input that shows it | evidently intended | confidence | as-written member | corrected member |
|---|---|---|---|---|---|---|
| services/TboApiService.js:14 | `getHotelCodesFromCache` calls `redisClient.get`. That is the object `config/redis` exports: `{redisClient, getAsync, setAsync}`, with no `get` (config/redis.js:47-51). So every `getHotelDetailsByCity` call with rooms throws a TypeError. | city "Delhi" with `hotels:delhi` cached as ["1001"] and one room | read the cache through the client (or `getAsync`), so that a cached city is searched | high; not executed | `TboApiService.GetHotelDetailsByCityAsWritten` | `TboApiService.GetHotelDetailsByCity` |

=== FILE: batching.dfy ===
/** Fixed-size slicing of an ordered list, the planning step behind both the
    chunking of hotel codes and the grouping of chunks into waves. */
module Batching {

  function Min(a: int, b: int): int {
    if a <= b then a else b
  }

  /** `Math.ceil(a / n)` */
  function CeilDiv(a: nat, n: nat): nat
    requires n > 0
  {
    (a + n - 1) / n
  }

  /** The concatenation of a list of lists, in order. */
  function Flatten<T>(xss: seq<seq<T>>): (r: seq<T>)
  {
    if |xss| == 0 then [] else xss[0] + Flatten(xss[1..])
  }

  lemma {:induction false} FlattenAppend<T>(a: seq<seq<T>>, b: seq<seq<T>>)
    ensures Flatten(a + b) == Flatten(a) + Flatten(b)
    decreases |a|
  {
    if |a| > 0 {
      assert (a + b)[1..] == a[1..] + b;
      FlattenAppend(a[1..], b);
    } else {
      assert a + b == b;
    }
  }

  lemma FlattenCons<T>(x: seq<T>, rest: seq<seq<T>>)
    ensures Flatten([x] + rest) == x + Flatten(rest)
  {
    assert ([x] + rest)[1..] == rest;
  }

  lemma MulStep(k: int, n: int)
    ensures (k + 1) * n == k * n + n
  {
  }

  lemma {:induction false} MulMono(a: int, b: int, n: int)
    requires n > 0 && a < b
    ensures a * n + n <= b * n
    decreases b - a
  {
    MulStep(b - 1, n);
    if b - 1 > a {
      MulMono(a, b - 1, n);
    }
  }

  /** Euclidean division has one quotient. */
  lemma DivUnique(y: int, n: int, q: int, r: int)
    requires n > 0 && 0 <= r < n && y == q * n + r
    ensures y / n == q
  {
    var q', r' := y / n, y % n;
    assert y == q' * n + r' && 0 <= r' < n;
    if q' < q {
      MulMono(q', q, n);
    }
    if q < q' {
      MulMono(q, q', n);
    }
  }

  lemma DivPlus(x: nat, n: nat)
    requires n > 0
    ensures (x + n) / n == x / n + 1
  {
    var q, r := x / n, x % n;
    MulStep(q, n);
    DivUnique(x + n, n, q + 1, r);
  }

  lemma CeilDivStep(a: nat, n: nat)
    requires n > 0 && a > n
    ensures CeilDiv(a, n) == CeilDiv(a - n, n) + 1
  {
    DivPlus(a - n + n - 1, n);
  }

  lemma CeilDivSmall(a: nat, n: nat)
    requires n > 0 && a <= n
    ensures CeilDiv(a, n) == if a == 0 then 0 else 1
  {
    if a == 0 {
      DivUnique(n - 1, n, 0, n - 1);
    } else {
      DivUnique(a + n - 1, n, 1, a - 1);
    }
  }

  /** `chunkArray(a, n)`: cuts `a` into consecutive pieces of `n` (the last one
      shorter). The pieces are non-empty, at most `n` long, all but the last exactly
      `n` long, there are `ceil(|a| / n)` of them, and laid end to end they give
      back `a`: nothing is dropped, repeated or reordered. */
  function Chunks<T>(a: seq<T>, n: nat): (r: seq<seq<T>>)
    requires n > 0
    ensures Flatten(r) == a
    ensures |r| == CeilDiv(|a|, n)
    ensures forall k :: 0 <= k < |r| ==> 0 < |r[k]| <= n
    ensures forall k :: 0 <= k < |r| - 1 ==> |r[k]| == n
    decreases |a|
  {
    if |a| == 0 then
      CeilDivSmall(0, n);
      []
    else if |a| <= n then
      CeilDivSmall(|a|, n);
      FlattenCons(a, []);
      [a]
    else
      var rest := Chunks(a[n..], n);
      CeilDivStep(|a|, n);
      FlattenCons(a[..n], rest);
      assert a[..n] + a[n..] == a;
      [a[..n]] + rest
  }

  /** `a.slice(k * n, k * n + n)` */
  function SliceAt<T>(a: seq<T>, n: nat, k: nat): seq<T>
    requires k * n <= |a|
  {
    a[k * n .. Min(k * n + n, |a|)]
  }

  /** Dropping a full first slice shifts every later slice by `n`. */
  lemma SliceShift<T>(a: seq<T>, n: nat, k: nat)
    requires 0 < n < |a| && 1 <= k
    requires (k - 1) * n < |a| - n
    ensures k * n < |a|
    ensures SliceAt(a[n..], n, k - 1) == SliceAt(a, n, k)
  {
    MulStep(k - 1, n);
    assert a[n..][(k - 1) * n .. Min((k - 1) * n + n, |a| - n)] == a[k * n .. Min(k * n + n, |a|)];
  }

  /** The first chunk is the first `n` elements, or all of them when fewer. */
  lemma ChunksHead<T>(a: seq<T>, n: nat)
    requires n > 0 && |Chunks(a, n)| > 0
    ensures |a| > 0 && Chunks(a, n)[0] == a[..Min(n, |a|)]
  {
  }

  /** With a second chunk, the first is full and the rest are the chunks of the remainder. */
  lemma ChunksTail<T>(a: seq<T>, n: nat)
    requires n > 0 && |Chunks(a, n)| > 1
    ensures |a| > n && Chunks(a, n) == [a[..n]] + Chunks(a[n..], n)
  {
  }

  /** Chunk `k` is the slice `a.slice(k * n, k * n + n)` the slicing loop
      `for (i = 0; i < a.length; i += n)` pushes on its `k`-th iteration. */
  lemma {:induction false} ChunkAt<T>(a: seq<T>, n: nat, k: nat)
    requires n > 0 && k < |Chunks(a, n)|
    ensures k * n < |a| && Chunks(a, n)[k] == SliceAt(a, n, k)
    decreases k
  {
    if k == 0 {
      ChunksHead(a, n);
      assert 0 * n == 0;
    } else {
      ChunksTail(a, n);
      ChunkAt(a[n..], n, k - 1);
      SliceShift(a, n, k);
      calc {
        Chunks(a, n)[k];
        Chunks(a[n..], n)[k - 1];
        SliceAt(a[n..], n, k - 1);
        SliceAt(a, n, k);
      }
    }
  }

  lemma ChunkSlices<T>(a: seq<T>, n: nat)
    requires n > 0
    ensures forall k :: 0 <= k < |Chunks(a, n)| ==>
      k * n < |a| && Chunks(a, n)[k] == SliceAt(a, n, k)
  {
    forall k | 0 <= k < |Chunks(a, n)|
      ensures k * n < |a| && Chunks(a, n)[k] == SliceAt(a, n, k)
    {
      ChunkAt(a, n, k);
    }
  }

  /** `xs.map((x, k) => f(base + k, x))`: each element with its global position. */
  function Indexed<T, U>(xs: seq<T>, base: nat, f: (nat, T) -> U): (r: seq<U>)
    ensures |r| == |xs|
    ensures forall k :: 0 <= k < |xs| ==> r[k] == f(base + k, xs[k])
  {
    seq(|xs|, k requires 0 <= k < |xs| => f(base + k, xs[k]))
  }

  /** Cutting the input cuts the output, the second part numbered on from `cut`. */
  lemma IndexedSplit<T, U>(xs: seq<T>, cut: nat, base: nat, f: (nat, T) -> U)
    requires cut <= |xs|
    ensures Indexed(xs, base, f) == Indexed(xs[..cut], base, f) + Indexed(xs[cut..], base + cut, f)
  {
    var all, front, back := Indexed(xs, base, f), Indexed(xs[..cut], base, f), Indexed(xs[cut..], base + cut, f);
    forall k | 0 <= k < |xs|
      ensures all[k] == (front + back)[k]
    {
      if k < cut {
        assert xs[..cut][k] == xs[k];
        assert (front + back)[k] == front[k];
      } else {
        assert xs[cut..][k - cut] == xs[k];
        assert (front + back)[k] == back[k - cut];
        assert base + cut + (k - cut) == base + k;
      }
    }
  }
}

=== FILE: city_search.dfy ===
/** `controllers/hotelController.js`, `searchHotelsByCity`: the orchestrator.
    It checks its inputs, resolves the city's hotel codes cache-first, cuts them
    into chunks of 10, sends the chunks in waves of at most 10 parallel requests
    with a pause between waves, keeps the hotels of the chunks that succeeded,
    and reports whether any hotel was found. */
module CitySearch {
  import opened Wrappers
  import opened Js
  import opened Text
  import opened Shapes
  import opened Batching
  import TboService

  const CHUNK_SIZE := 10
  const MAX_PARALLEL_REQUESTS := 10

  /** Errors the orchestrator throws to its caller. */
  datatype SearchError =
    | MissingParameters
    | MissingAdultsField(room: nat)
    | TooFewAdults(room: nat)
    | StoreFailed(message: string)
  {
    function Message(): string {
      match this
      case MissingParameters =>
        "Missing required parameters: city, checkIn, checkOut, and paxRooms are required"
      case MissingAdultsField(i) => "paxRooms[" + NatToString(i) + "] is missing Adults field"
      case TooFewAdults(i) => "paxRooms[" + NatToString(i) + "] must have at least 1 adult"
      case StoreFailed(m) => m
    }
  }

  /** `!value`, for an optional string argument. */
  predicate Falsy(s: Option<string>) {
    s.None? || s.value == ""
  }

  /** The first check: a falsy city, check-in or check-out, or an absent or
      empty room list. */
  predicate MissingInput(city: Option<string>, checkIn: Option<string>, checkOut: Option<string>,
                         rooms: Option<seq<RawRoom>>) {
    Falsy(city) || Falsy(checkIn) || Falsy(checkOut) || rooms.None? || |rooms.value| == 0
  }

  /** What the room loop throws for one room, if anything: no own `Adults` or
      `adults` property, or `Adults || adults` falsy or below 1. Children and
      their ages are only logged. */
  function RoomError(room: RawRoom, i: nat): (e: Option<SearchError>)
    ensures e.Some? <==> !(Owned(room.Adults) || Owned(room.adults))
                         || !TruthyNum(EitherNum(room.Adults, room.adults))
                         || EitherNum(room.Adults, room.adults).v < 1
    ensures e.Some? ==> e.value.MissingAdultsField? || e.value.TooFewAdults?
    ensures e == Some(MissingAdultsField(i)) <==> !Owned(room.Adults) && !Owned(room.adults)
    ensures e.Some? && e.value.MissingAdultsField? ==> e.value.room == i && !Owned(room.Adults) && !Owned(room.adults)
    ensures e.Some? && e.value.TooFewAdults? ==> e.value.room == i
  {
    if !Owned(room.Adults) && !Owned(room.adults) then Some(MissingAdultsField(i))
    else
      var adults := EitherNum(room.Adults, room.adults);
      if !TruthyNum(adults) || adults.v < 1 then Some(TooFewAdults(i)) else None
  }

  /** The room loop from index `from`: the error of the first failing room. */
  function FirstRoomError(rooms: seq<RawRoom>, from: nat): (e: Option<SearchError>)
    requires from <= |rooms|
    ensures e.None? <==> forall i :: from <= i < |rooms| ==> RoomError(rooms[i], i).None?
    ensures e.Some? ==> exists i :: from <= i < |rooms| && e == RoomError(rooms[i], i) &&
                                     forall j :: from <= j < i ==> RoomError(rooms[j], j).None?
    decreases |rooms| - from
  {
    if from == |rooms| then None
    else if RoomError(rooms[from], from).Some? then RoomError(rooms[from], from)
    else FirstRoomError(rooms, from + 1)
  }

  /** The outcome of one chunk's request: its hotels (`HotelResult || []`), or
      the message of the error it threw. */
  datatype Outcome = Succeeded(results: seq<HotelRecord>) | Failed(error: string)

  /** `results` of the successful outcomes, concatenated in order. */
  function Successes(outcomes: seq<Outcome>): seq<HotelRecord> {
    if |outcomes| == 0 then []
    else (if outcomes[0].Succeeded? then outcomes[0].results else []) + Successes(outcomes[1..])
  }

  lemma {:induction false} SuccessesAppend(a: seq<Outcome>, b: seq<Outcome>)
    ensures Successes(a + b) == Successes(a) + Successes(b)
    decreases |a|
  {
    if |a| == 0 {
      assert a + b == b;
    } else {
      assert (a + b)[1..] == a[1..] + b;
      SuccessesAppend(a[1..], b);
    }
  }

  /** A failed chunk is isolated: it adds nothing and takes nothing away. */
  lemma FailureIsIsolated(before: seq<Outcome>, error: string, after: seq<Outcome>)
    ensures Successes(before + [Failed(error)] + after) == Successes(before + after)
  {
    SuccessesAppend(before + [Failed(error)], after);
    SuccessesAppend(before, [Failed(error)]);
    SuccessesAppend(before, after);
  }

  /** The merge is empty exactly when every chunk failed or found no hotel. */
  lemma {:induction false} SuccessesEmpty(outcomes: seq<Outcome>)
    ensures |Successes(outcomes)| == 0 <==>
      forall k :: 0 <= k < |outcomes| ==> outcomes[k].Failed? || |outcomes[k].results| == 0
    decreases |outcomes|
  {
    if |outcomes| > 0 {
      SuccessesEmpty(outcomes[1..]);
      assert forall k :: 1 <= k < |outcomes| ==> outcomes[k] == outcomes[1..][k - 1];
    }
  }

  /** The request of chunk `chunk`, turned into an outcome: the chunk's
      request goes to `upstream(index, ·)`, and whatever it throws becomes a
      failed outcome. */
  function ChunkOutcome(index: nat, chunk: seq<string>, checkIn: string, checkOut: string, rooms: seq<RawRoom>,
                        upstream: (nat, Payload) -> TboService.Reply): Outcome
  {
    match TboService.SearchHotelAvailability(chunk, checkIn, checkOut, rooms, p => upstream(index, p))
    case Success(body) => Succeeded(body.HotelResult.GetOr([]))
    case Failure(e) => Failed(e.Message())
  }

  /** `ChunkOutcome` with the request parameters fixed, as a function of the
      request index and the chunk. */
  function OutcomeOf(checkIn: string, checkOut: string, rooms: seq<RawRoom>,
                     upstream: (nat, Payload) -> TboService.Reply): (nat, seq<string>) -> Outcome
  {
    (index: nat, chunk: seq<string>) => ChunkOutcome(index, chunk, checkIn, checkOut, rooms, upstream)
  }

  /** The outcomes of every chunk, chunk `k` sent as request `base + k`. */
  function AllOutcomes(chunks: seq<seq<string>>, base: nat, checkIn: string, checkOut: string, rooms: seq<RawRoom>,
                       upstream: (nat, Payload) -> TboService.Reply): (r: seq<Outcome>)
    ensures |r| == |chunks|
    ensures forall k :: 0 <= k < |chunks| ==> r[k] == ChunkOutcome(base + k, chunks[k], checkIn, checkOut, rooms, upstream)
  {
    Indexed(chunks, base, OutcomeOf(checkIn, checkOut, rooms, upstream))
  }

  /** The state the wave loop accumulates: hotels so far, waves run, pauses
      taken, and the chunks sent, in sending order. */
  datatype Progress = Progress(results: seq<HotelRecord>, waves: nat, pauses: nat, sent: seq<seq<string>>)

  /** The wave loop over `waves`, whose first wave starts at global chunk index
      `base`: each wave's chunks are sent together (chunk `index` of the wave as
      request `base + index`), every outcome is awaited, the successful results
      are appended in chunk order, and a pause follows every wave but the last. */
  function RunWaves(waves: seq<seq<seq<string>>>, base: nat, checkIn: string, checkOut: string, rooms: seq<RawRoom>,
                    upstream: (nat, Payload) -> TboService.Reply): (p: Progress)
    decreases |waves|
  {
    if |waves| == 0 then Progress([], 0, 0, [])
    else
      var outcomes := AllOutcomes(waves[0], base, checkIn, checkOut, rooms, upstream);
      var rest := RunWaves(waves[1..], base + MAX_PARALLEL_REQUESTS, checkIn, checkOut, rooms, upstream);
      Progress(Successes(outcomes) + rest.results, rest.waves + 1,
               if |waves| > 1 then rest.pauses + 1 else 0, waves[0] + rest.sent)
  }

  /** The first wave is the first (up to) 10 chunks; the rest are the waves of
      the remaining chunks. */
  lemma WavesSplit(chunks: seq<seq<string>>)
    requires |chunks| > MAX_PARALLEL_REQUESTS
    ensures Chunks(chunks, MAX_PARALLEL_REQUESTS) ==
      [chunks[..MAX_PARALLEL_REQUESTS]] + Chunks(chunks[MAX_PARALLEL_REQUESTS..], MAX_PARALLEL_REQUESTS)
  {
  }

  /** Every chunk is sent exactly once, in order, wave after wave. */
  lemma {:induction false} WavesSendEveryChunk(
    chunks: seq<seq<string>>, base: nat, checkIn: string, checkOut: string, rooms: seq<RawRoom>,
    upstream: (nat, Payload) -> TboService.Reply)
    ensures RunWaves(Chunks(chunks, MAX_PARALLEL_REQUESTS), base, checkIn, checkOut, rooms, upstream).sent == chunks
    decreases |chunks|
  {
    var waves := Chunks(chunks, MAX_PARALLEL_REQUESTS);
    if |chunks| == 0 {
    } else if |chunks| <= MAX_PARALLEL_REQUESTS {
      assert waves == [chunks];
      assert waves[1..] == [];
      assert chunks + [] == chunks;
    } else {
      WavesSplit(chunks);
      assert waves[1..] == Chunks(chunks[MAX_PARALLEL_REQUESTS..], MAX_PARALLEL_REQUESTS);
      WavesSendEveryChunk(chunks[MAX_PARALLEL_REQUESTS..], base + MAX_PARALLEL_REQUESTS, checkIn, checkOut, rooms, upstream);
      assert chunks == chunks[..MAX_PARALLEL_REQUESTS] + chunks[MAX_PARALLEL_REQUESTS..];
    }
  }

  /** Chunk `index` of wave `w` is global chunk `w * 10 + index`, the
      `i + index` the loop logs and records for it. */
  lemma WaveIndexIsGlobalIndex(chunks: seq<seq<string>>, w: nat, index: nat)
    requires w < |Chunks(chunks, MAX_PARALLEL_REQUESTS)|
    requires index < |Chunks(chunks, MAX_PARALLEL_REQUESTS)[w]|
    ensures w * MAX_PARALLEL_REQUESTS + index < |chunks|
    ensures Chunks(chunks, MAX_PARALLEL_REQUESTS)[w][index] == chunks[w * MAX_PARALLEL_REQUESTS + index]
  {
    ChunkAt(chunks, MAX_PARALLEL_REQUESTS, w);
  }

  /** The outcomes of a list of chunks split in two are those of the halves,
      the second half numbered on from the first. */
  lemma OutcomesSplit(
    chunks: seq<seq<string>>, cut: nat, base: nat, checkIn: string, checkOut: string, rooms: seq<RawRoom>,
    upstream: (nat, Payload) -> TboService.Reply)
    requires cut <= |chunks|
    ensures AllOutcomes(chunks, base, checkIn, checkOut, rooms, upstream) ==
      AllOutcomes(chunks[..cut], base, checkIn, checkOut, rooms, upstream)
      + AllOutcomes(chunks[cut..], base + cut, checkIn, checkOut, rooms, upstream)
  {
    IndexedSplit(chunks, cut, base, OutcomeOf(checkIn, checkOut, rooms, upstream));
  }

  /** Wave by wave equals chunk by chunk: the loop's merged hotels are the
      successful results of all chunks in global chunk order — chunk `index` of
      the wave starting at `i` is global chunk `i + index`. */
  lemma {:induction false} WavesMergeInChunkOrder(
    chunks: seq<seq<string>>, base: nat, checkIn: string, checkOut: string, rooms: seq<RawRoom>,
    upstream: (nat, Payload) -> TboService.Reply)
    ensures RunWaves(Chunks(chunks, MAX_PARALLEL_REQUESTS), base, checkIn, checkOut, rooms, upstream).results
         == Successes(AllOutcomes(chunks, base, checkIn, checkOut, rooms, upstream))
    decreases |chunks|
  {
    var waves := Chunks(chunks, MAX_PARALLEL_REQUESTS);
    var all := AllOutcomes(chunks, base, checkIn, checkOut, rooms, upstream);
    if |chunks| == 0 {
    } else if |chunks| <= MAX_PARALLEL_REQUESTS {
      assert waves == [chunks];
      assert waves[1..] == [];
      assert Successes(all) + [] == Successes(all);
    } else {
      var tail := chunks[MAX_PARALLEL_REQUESTS..];
      WavesSplit(chunks);
      assert waves[1..] == Chunks(tail, MAX_PARALLEL_REQUESTS);
      WavesMergeInChunkOrder(tail, base + MAX_PARALLEL_REQUESTS, checkIn, checkOut, rooms, upstream);
      OutcomesSplit(chunks, MAX_PARALLEL_REQUESTS, base, checkIn, checkOut, rooms, upstream);
      SuccessesAppend(AllOutcomes(chunks[..MAX_PARALLEL_REQUESTS], base, checkIn, checkOut, rooms, upstream),
                      AllOutcomes(tail, base + MAX_PARALLEL_REQUESTS, checkIn, checkOut, rooms, upstream));
    }
  }

  /** The loop runs once per wave and pauses after every wave but the last. */
  lemma {:induction false} WavePauses(
    waves: seq<seq<seq<string>>>, base: nat, checkIn: string, checkOut: string, rooms: seq<RawRoom>,
    upstream: (nat, Payload) -> TboService.Reply)
    ensures var p := RunWaves(waves, base, checkIn, checkOut, rooms, upstream);
      p.waves == |waves| && p.pauses == (if |waves| == 0 then 0 else |waves| - 1)
    decreases |waves|
  {
    if |waves| > 0 {
      WavePauses(waves[1..], base + MAX_PARALLEL_REQUESTS, checkIn, checkOut, rooms, upstream);
    }
  }

  /** What the orchestrator resolves to when it does not throw. */
  datatype CityReply =
    | Found(results: seq<HotelRecord>, totalResults: nat)
    | NotFound(message: string)

  /** A run of the orchestrator: its reply or thrown error, the cache after it,
      the store queries, the chunks sent upstream in order, and the pauses. */
  datatype Run = Run(
    reply: Result<CityReply, SearchError>, cache: map<string, seq<string>>,
    storeQueries: seq<string>, sent: seq<seq<string>>, pauses: nat)

  /** What `searchHotelsByCity` does once its inputs have passed: the cache-aside
      lookup of city `c`, then the chunked, wave-by-wave search of its codes. */
  function Resolve(
    c: string, checkIn: string, checkOut: string, rooms: seq<RawRoom>,
    cache: map<string, seq<string>>, store: string -> Result<seq<string>, string>,
    upstream: (nat, Payload) -> TboService.Reply): (r: Run)
    ensures c in cache && |cache[c]| > 0 ==>
      r.storeQueries == [] && r.cache == cache && r.reply.Success? && r.sent == Chunks(cache[c], CHUNK_SIZE)
    ensures !(c in cache && |cache[c]| > 0) ==> r.storeQueries == [c]
    ensures !(c in cache && |cache[c]| > 0) && store(c).Failure? ==>
      r == Run(Failure(StoreFailed(store(c).error)), cache, [c], [], 0)
    ensures !(c in cache && |cache[c]| > 0) && store(c).Success? && |store(c).value| == 0 ==>
      r == Run(Success(NotFound("No hotels found in " + c)), cache, [c], [], 0)
    ensures !(c in cache && |cache[c]| > 0) && store(c).Success? && |store(c).value| > 0 ==>
      r.cache == cache[c := store(c).value] && r.reply.Success? && r.sent == Chunks(store(c).value, CHUNK_SIZE)
    ensures |r.sent| > 0 ==> r.pauses == CeilDiv(|r.sent|, MAX_PARALLEL_REQUESTS) - 1
    ensures r.reply.Success? && r.reply.value.Found? ==>
      && r.reply.value.totalResults == |r.reply.value.results| > 0
      && r.reply.value.results == Successes(AllOutcomes(r.sent, 0, checkIn, checkOut, rooms, upstream))
    ensures r.reply.Success? && |r.sent| > 0 ==>
      (r.reply.value.Found? <==> |Successes(AllOutcomes(r.sent, 0, checkIn, checkOut, rooms, upstream))| > 0)
    ensures r.reply.Success? && r.reply.value.NotFound? && |r.sent| > 0 ==>
      r.reply.value.message == "No available hotels found in " + c + " for the given dates and room configuration"
  {
    var hit := c in cache && |cache[c]| > 0;
    var fetched := if hit then Success(cache[c]) else store(c);
    var queries := if hit then [] else [c];
    match fetched
    case Failure(e) => Run(Failure(StoreFailed(e)), cache, queries, [], 0)
    case Success(codes) =>
      if |codes| == 0 then Run(Success(NotFound("No hotels found in " + c)), cache, queries, [], 0)
      else
        var cache' := if hit then cache else cache[c := codes];
        Dispatch(c, codes, checkIn, checkOut, rooms, cache', queries, upstream)
  }

  /** `searchHotelsByCity`. `cache` holds what the city-code cache helpers read
      and write; `store` stands for the database query by city; `upstream(k, ·)`
      for the HTTP exchange of chunk `k`. */
  function SearchHotelsByCity(
    city: Option<string>, checkIn: Option<string>, checkOut: Option<string>, rooms: Option<seq<RawRoom>>,
    cache: map<string, seq<string>>, store: string -> Result<seq<string>, string>,
    upstream: (nat, Payload) -> TboService.Reply): (r: Run)
    // Input checks come before any cache, store or upstream access.
    ensures MissingInput(city, checkIn, checkOut, rooms) ==>
      r == Run(Failure(MissingParameters), cache, [], [], 0)
    ensures !MissingInput(city, checkIn, checkOut, rooms) && FirstRoomError(rooms.value, 0).Some? ==>
      r == Run(Failure(FirstRoomError(rooms.value, 0).value), cache, [], [], 0)
    // Cache-aside: a non-empty cached list is used as it is; otherwise the store decides.
    ensures !MissingInput(city, checkIn, checkOut, rooms) && FirstRoomError(rooms.value, 0).None? ==>
      var c := city.value;
      && (c in cache && |cache[c]| > 0 ==> r.storeQueries == [] && r.cache == cache && Flatten(r.sent) == cache[c])
      && (!(c in cache && |cache[c]| > 0) ==> r.storeQueries == [c])
      && (!(c in cache && |cache[c]| > 0) && store(c).Failure? ==>
            r == Run(Failure(StoreFailed(store(c).error)), cache, [c], [], 0))
      && (!(c in cache && |cache[c]| > 0) && store(c).Success? && |store(c).value| == 0 ==>
            r == Run(Success(NotFound("No hotels found in " + c)), cache, [c], [], 0))
      && (!(c in cache && |cache[c]| > 0) && store(c).Success? && |store(c).value| > 0 ==>
            r.cache == cache[c := store(c).value] && Flatten(r.sent) == store(c).value)
    // A non-empty list, cached or from the store, is sent in chunks of 10 and answered.
    ensures !MissingInput(city, checkIn, checkOut, rooms) && FirstRoomError(rooms.value, 0).None? ==>
      var c := city.value;
      var hit := c in cache && |cache[c]| > 0;
      (hit || (store(c).Success? && |store(c).value| > 0)) ==>
        && r.reply.Success?
        && r.sent == Chunks(if hit then cache[c] else store(c).value, CHUNK_SIZE)
    // Chunks of at most 10 codes, in order; one pause between consecutive waves.
    ensures forall k :: 0 <= k < |r.sent| ==> 0 < |r.sent[k]| <= CHUNK_SIZE
    ensures |r.sent| > 0 ==> r.pauses == CeilDiv(|r.sent|, MAX_PARALLEL_REQUESTS) - 1
    // The reply: the hotels of the successful chunks in chunk order, and success
    // exactly when there is at least one.
    ensures r.reply.Success? && r.reply.value.Found? ==>
      && r.reply.value.totalResults == |r.reply.value.results| > 0
      && r.reply.value.results ==
           Successes(AllOutcomes(r.sent, 0, checkIn.value, checkOut.value, rooms.value, upstream))
    ensures r.reply.Success? && |r.sent| > 0 ==>
      (r.reply.value.Found? <==>
         |Successes(AllOutcomes(r.sent, 0, checkIn.value, checkOut.value, rooms.value, upstream))| > 0)
    ensures r.reply.Success? && r.reply.value.NotFound? && |r.sent| > 0 ==>
      r.reply.value.message ==
        "No available hotels found in " + city.value + " for the given dates and room configuration"
  {
    if MissingInput(city, checkIn, checkOut, rooms) then Run(Failure(MissingParameters), cache, [], [], 0)
    else if FirstRoomError(rooms.value, 0).Some? then Run(Failure(FirstRoomError(rooms.value, 0).value), cache, [], [], 0)
    else
      Resolve(city.value, checkIn.value, checkOut.value, rooms.value, cache, store, upstream)
  }

  /** Steps 4 and 5: chunking, the wave loop, and the final result rule. */
  function Dispatch(
    city: string, codes: seq<string>, checkIn: string, checkOut: string, rooms: seq<RawRoom>,
    cache: map<string, seq<string>>, queries: seq<string>,
    upstream: (nat, Payload) -> TboService.Reply): (r: Run)
    requires |codes| > 0
    ensures r.reply.Success? && r.cache == cache && r.storeQueries == queries
    ensures Flatten(r.sent) == codes && r.sent == Chunks(codes, CHUNK_SIZE)
    ensures r.pauses == CeilDiv(|r.sent|, MAX_PARALLEL_REQUESTS) - 1
    ensures var merged := Successes(AllOutcomes(r.sent, 0, checkIn, checkOut, rooms, upstream));
      && (|merged| == 0 ==>
            r.reply.value == NotFound("No available hotels found in " + city + " for the given dates and room configuration"))
      && (|merged| > 0 ==> r.reply.value == Found(merged, |merged|))
  {
    var chunks := Chunks(codes, CHUNK_SIZE);
    var progress := RunWaves(Chunks(chunks, MAX_PARALLEL_REQUESTS), 0, checkIn, checkOut, rooms, upstream);
    WavesMergeInChunkOrder(chunks, 0, checkIn, checkOut, rooms, upstream);
    WavesSendEveryChunk(chunks, 0, checkIn, checkOut, rooms, upstream);
    WavePauses(Chunks(chunks, MAX_PARALLEL_REQUESTS), 0, checkIn, checkOut, rooms, upstream);
    var reply :=
      if |progress.results| == 0 then
        NotFound("No available hotels found in " + city + " for the given dates and room configuration")
      else Found(progress.results, |progress.results|);
    Run(Success(reply), cache, queries, progress.sent, progress.pauses)
  }
}

=== FILE: dates.dfy ===
/** Calendar dates written `YYYY-MM-DD`, as the search validator checks them:
    the shape test `^\d{4}-\d{2}-\d{2}$`, strict calendar validity, ordering and
    the whole-day difference between two dates. */
module Dates {
  import opened Wrappers

  datatype Date = Date(year: int, month: int, day: int)

  predicate IsLeapYear(y: int) {
    (y % 4 == 0 && y % 100 != 0) || y % 400 == 0
  }

  function DaysInMonth(y: int, m: int): int
    requires 1 <= m <= 12
  {
    if m == 2 then (if IsLeapYear(y) then 29 else 28)
    else if m == 4 || m == 6 || m == 9 || m == 11 then 30
    else 31
  }

  function DaysInYear(y: int): int {
    if IsLeapYear(y) then 366 else 365
  }

  /** A real day of the proleptic Gregorian calendar with a four-digit year. */
  predicate Valid(d: Date) {
    0 <= d.year <= 9999 && 1 <= d.month <= 12 && 1 <= d.day <= DaysInMonth(d.year, d.month)
  }

  /** Strict chronological order. */
  predicate Before(a: Date, b: Date) {
    || a.year < b.year
    || (a.year == b.year && a.month < b.month)
    || (a.year == b.year && a.month == b.month && a.day < b.day)
  }

  predicate IsDigit(c: char) {
    '0' <= c <= '9'
  }

  function DigitValue(c: char): nat
    requires IsDigit(c)
  {
    c as int - '0' as int
  }

  /** The number written by the decimal digits of `s`. */
  function Number(s: string): nat
    requires forall i :: 0 <= i < |s| ==> IsDigit(s[i])
  {
    if |s| == 0 then 0 else Number(s[..|s| - 1]) * 10 + DigitValue(s[|s| - 1])
  }

  /** The regular expression `^\d{4}-\d{2}-\d{2}$`. */
  predicate HasDateShape(s: string) {
    && |s| == 10
    && (forall i :: 0 <= i < 10 && i != 4 && i != 7 ==> IsDigit(s[i]))
    && s[4] == '-' && s[7] == '-'
  }

  /** Reading a `YYYY-MM-DD` text strictly: the shape must match and the fields
      must name a real calendar day. */
  function Parse(s: string): (r: Option<Date>)
    ensures r.Some? ==> HasDateShape(s) && Valid(r.value)
  {
    if !HasDateShape(s) then None
    else
      var d := Date(Number(s[0..4]), Number(s[5..7]), Number(s[8..10]));
      if Valid(d) then Some(d) else None
  }

  /** `isValidDate`: a truthy string of the right shape naming a real day. */
  predicate IsValidDate(s: Option<string>) {
    s.Some? && s.value != "" && Parse(s.value).Some?
  }

  function Pad(n: nat, width: nat): (r: string)
    ensures |r| == width
    ensures forall i :: 0 <= i < |r| ==> IsDigit(r[i])
  {
    if width == 0 then "" else Pad(n / 10, width - 1) + [('0' as int + n % 10) as char]
  }

  /** The canonical `YYYY-MM-DD` text of a date. */
  function Format(d: Date): (r: string)
    requires Valid(d)
    ensures HasDateShape(r)
  {
    Pad(d.year, 4) + "-" + Pad(d.month, 2) + "-" + Pad(d.day, 2)
  }

  lemma {:induction false} NumberPad(n: nat, width: nat)
    requires n < Power10(width)
    ensures Number(Pad(n, width)) == n
    decreases width
  {
    if width > 0 {
      var p := Pad(n, width);
      var init := Pad(n / 10, width - 1);
      assert p[..|p| - 1] == init;
      NumberPad(n / 10, width - 1);
    }
  }

  function Power10(k: nat): nat {
    if k == 0 then 1 else 10 * Power10(k - 1)
  }

  /** Every valid date survives a print-then-parse round trip. */
  lemma ParseFormat(d: Date)
    requires Valid(d)
    ensures Parse(Format(d)) == Some(d)
  {
    var s := Format(d);
    assert s[0..4] == Pad(d.year, 4);
    assert s[5..7] == Pad(d.month, 2);
    assert s[8..10] == Pad(d.day, 2);
    NumberPad(d.year, 4);
    NumberPad(d.month, 2);
    NumberPad(d.day, 2);
  }

  /** A text the strict parser accepts is exactly the canonical text of its date,
      so no two accepted texts name the same day. */
  lemma FormatParse(s: string)
    requires Parse(s).Some?
    ensures Format(Parse(s).value) == s
  {
    var d := Parse(s).value;
    PadNumber(s[0..4]);
    PadNumber(s[5..7]);
    PadNumber(s[8..10]);
    assert s == s[0..4] + "-" + s[5..7] + "-" + s[8..10];
  }

  lemma {:induction false} PadNumber(s: string)
    requires forall i :: 0 <= i < |s| ==> IsDigit(s[i])
    ensures Pad(Number(s), |s|) == s
    decreases |s|
  {
    if |s| > 0 {
      var init := s[..|s| - 1];
      PadNumber(init);
      var n := Number(s);
      assert n / 10 == Number(init);
      assert n % 10 == DigitValue(s[|s| - 1]);
      assert s == init + [s[|s| - 1]];
    }
  }

  /** Days from 0000-01-01 to the first day of year `y`. */
  function DaysBeforeYear(y: nat): nat {
    if y == 0 then 0 else DaysBeforeYear(y - 1) + DaysInYear(y - 1)
  }

  /** Days from the first of January of `y` to the first day of month `m`. */
  function DaysBeforeMonth(y: int, m: int): nat
    requires 1 <= m <= 13
  {
    if m == 1 then 0 else DaysBeforeMonth(y, m - 1) + DaysInMonth(y, m - 1)
  }

  /** The position of a day on a continuous day count. */
  function DayNumber(d: Date): nat
    requires Valid(d)
  {
    DaysBeforeYear(d.year) + DaysBeforeMonth(d.year, d.month) + d.day - 1
  }

  lemma MonthsFillYear(y: int)
    ensures DaysBeforeMonth(y, 13) == DaysInYear(y)
  {
    var feb := DaysInMonth(y, 2);
    assert DaysBeforeMonth(y, 2) == 31;
    assert DaysBeforeMonth(y, 3) == 31 + feb;
    assert DaysBeforeMonth(y, 4) == 62 + feb;
    assert DaysBeforeMonth(y, 5) == 92 + feb;
    assert DaysBeforeMonth(y, 6) == 123 + feb;
    assert DaysBeforeMonth(y, 7) == 153 + feb;
    assert DaysBeforeMonth(y, 8) == 184 + feb;
    assert DaysBeforeMonth(y, 9) == 215 + feb;
    assert DaysBeforeMonth(y, 10) == 245 + feb;
    assert DaysBeforeMonth(y, 11) == 276 + feb;
    assert DaysBeforeMonth(y, 12) == 306 + feb;
  }

  lemma {:induction false} MonthsMonotone(y: int, m1: int, m2: int)
    requires 1 <= m1 < m2 <= 13
    ensures DaysBeforeMonth(y, m1) + DaysInMonth(y, m1) <= DaysBeforeMonth(y, m2)
    decreases m2 - m1
  {
    if m2 > m1 + 1 {
      MonthsMonotone(y, m1, m2 - 1);
    }
  }

  lemma {:induction false} YearsMonotone(y1: nat, y2: nat)
    requires y1 < y2
    ensures DaysBeforeYear(y1) + DaysInYear(y1) <= DaysBeforeYear(y2)
    decreases y2 - y1
  {
    if y2 > y1 + 1 {
      YearsMonotone(y1, y2 - 1);
    }
  }

  /** A day's number lies within its year's range of numbers. */
  lemma DayInYear(d: Date)
    requires Valid(d)
    ensures DaysBeforeYear(d.year) <= DayNumber(d) < DaysBeforeYear(d.year) + DaysInYear(d.year)
  {
    MonthsFillYear(d.year);
    if d.month < 12 {
      MonthsMonotone(d.year, d.month, 13);
    }
  }

  /** The day count orders dates exactly as the calendar does, so the
      difference of two counts is positive exactly when the first date is earlier. */
  lemma DayNumberOrder(a: Date, b: Date)
    requires Valid(a) && Valid(b)
    ensures Before(a, b) <==> DayNumber(a) < DayNumber(b)
    ensures a == b <==> DayNumber(a) == DayNumber(b)
  {
    DayInYear(a);
    DayInYear(b);
    if a.year < b.year {
      YearsMonotone(a.year, b.year);
    } else if b.year < a.year {
      YearsMonotone(b.year, a.year);
    } else if a.month < b.month {
      MonthsMonotone(a.year, a.month, b.month);
    } else if b.month < a.month {
      MonthsMonotone(a.year, b.month, a.month);
    }
  }

  /** The calendar day after `d`. */
  function NextDay(d: Date): Date
    requires Valid(d)
  {
    if d.day < DaysInMonth(d.year, d.month) then Date(d.year, d.month, d.day + 1)
    else if d.month < 12 then Date(d.year, d.month + 1, 1)
    else Date(d.year + 1, 1, 1)
  }

  /** Consecutive calendar days are consecutive on the day count. */
  lemma NextDayNumber(d: Date)
    requires Valid(d) && (d.year < 9999 || !(d.month == 12 && d.day == 31))
    ensures Valid(NextDay(d))
    ensures DayNumber(NextDay(d)) == DayNumber(d) + 1
  {
    MonthsFillYear(d.year);
  }

  /** `calculateNights`: zero unless both texts are valid dates, otherwise the
      whole-day difference `checkOut - checkIn`, which may be negative. */
  function Nights(checkIn: Option<string>, checkOut: Option<string>): (r: int)
    ensures !IsValidDate(checkIn) || !IsValidDate(checkOut) ==> r == 0
    ensures IsValidDate(checkIn) && IsValidDate(checkOut) ==>
      (r > 0 <==> Before(Parse(checkIn.value).value, Parse(checkOut.value).value))
    ensures IsValidDate(checkIn) && IsValidDate(checkOut) ==>
      (r == 0 <==> Parse(checkIn.value) == Parse(checkOut.value))
  {
    if !IsValidDate(checkIn) || !IsValidDate(checkOut) then 0
    else
      var a := Parse(checkIn.value).value;
      var b := Parse(checkOut.value).value;
      DayNumberOrder(a, b);
      DayNumber(b) - DayNumber(a)
  }

  /** `isValidDate` accepts exactly the texts that write out a real calendar
      date as `YYYY-MM-DD`. */
  lemma ValidDateIsWrittenDate(s: string)
    ensures IsValidDate(Some(s)) <==> exists d :: Valid(d) && Format(d) == s
  {
    if IsValidDate(Some(s)) {
      FormatParse(s);
    }
    if exists d :: Valid(d) && Format(d) == s {
      var d :| Valid(d) && Format(d) == s;
      ParseFormat(d);
      assert |Format(d)| == 10;
    }
  }

  /** A stay from one day to the next is one night. */
  lemma OneNight(d: Date)
    requires Valid(d) && (d.year < 9999 || !(d.month == 12 && d.day == 31))
    ensures Nights(Some(Format(d)), Some(Format(NextDay(d)))) == 1
  {
    NextDayNumber(d);
    ParseFormat(d);
    ParseFormat(NextDay(d));
    assert |Format(d)| == 10 && |Format(NextDay(d))| == 10;
  }

  /** Nights add up over consecutive stays. */
  lemma NightsAdd(a: string, b: string, c: string)
    requires IsValidDate(Some(a)) && IsValidDate(Some(b)) && IsValidDate(Some(c))
    ensures Nights(Some(a), Some(b)) + Nights(Some(b), Some(c)) == Nights(Some(a), Some(c))
  {
  }
}

=== FILE: formatting.dfy ===
/** The response formatting shared, with two differences, by the REST
    controller (`controllers/HotelController.js`) and the GraphQL resolver
    (`graphql/resolvers.js`). */
module Formatting {
  import opened Wrappers
  import opened Js
  import opened Shapes
  import opened TboApiService

  /** Which of the two front ends formats the results. */
  datatype Api = Rest | GraphQL

  /** The `price` property: the text "Price not available", or a price value
      (which may itself be `null`/`undefined`). */
  datatype Quote = PriceNotAvailable | Amount(value: Field<int>)

  datatype MaxOccupancy = MaxOccupancy(adults: Field<int>, children: Field<int>)

  datatype RoomType = RoomType(
    roomTypeCode: Field<string>, roomTypeName: Field<string>, inclusion: Field<string>,
    bedType: Field<string>, maxOccupancy: MaxOccupancy)

  datatype Hotel = Hotel(
    hotelCode: Field<string>, hotelName: Field<string>, hotelCategory: Field<string>,
    rating: Field<string>, address: Field<string>, city: Field<string>, country: Field<string>,
    price: Quote, currency: Field<string>, roomTypes: seq<RoomType>, amenities: seq<string>,
    images: seq<string>, latitude: Field<string>, longitude: Field<string>,
    cancellationPolicies: seq<string>)

  /** `getPriceByNationality`: no price block gives the text; otherwise the REST
      controller takes `OfferedPrice ?? PublishedPrice` (only a missing offered
      price falls back) and the resolver takes `OfferedPrice || PublishedPrice`
      (a zero offered price falls back too). The nationality is ignored by both. */
  function PriceOf(hotel: HotelRecord, api: Api): (q: Quote)
    ensures hotel.Price.None? <==> q == PriceNotAvailable
    ensures hotel.Price.Some? && hotel.Price.value.OfferedPrice.Value? && api == Rest ==>
      q == Amount(hotel.Price.value.OfferedPrice)
    ensures hotel.Price.Some? && TruthyNum(hotel.Price.value.OfferedPrice) ==>
      q == Amount(hotel.Price.value.OfferedPrice)
    ensures hotel.Price.Some? && !hotel.Price.value.OfferedPrice.Value? ==>
      q == Amount(hotel.Price.value.PublishedPrice)
    ensures hotel.Price.Some? && api == GraphQL && !TruthyNum(hotel.Price.value.OfferedPrice) ==>
      q == Amount(hotel.Price.value.PublishedPrice)
  {
    if hotel.Price.None? then PriceNotAvailable
    else
      var p := hotel.Price.value;
      match api
      case Rest => Amount(if p.OfferedPrice.Value? then p.OfferedPrice else p.PublishedPrice)
      case GraphQL => Amount(EitherNum(p.OfferedPrice, p.PublishedPrice))
  }

  /** The two front ends quote different prices exactly for an offered price of
      zero beside a published price that is not zero. */
  lemma PriceDialectsDiffer(hotel: HotelRecord)
    ensures PriceOf(hotel, Rest) != PriceOf(hotel, GraphQL) <==>
      hotel.Price.Some? && hotel.Price.value.OfferedPrice == Value(0)
      && hotel.Price.value.PublishedPrice != Value(0)
  {
  }

  /** The `currency` property: REST writes `Price?.CurrencyCode || 'Unknown'`,
      the resolver `Price ? Price.CurrencyCode : 'Unknown'`. */
  function CurrencyOf(hotel: HotelRecord, api: Api): (c: Field<string>)
    ensures hotel.Price.None? ==> c == Value("Unknown")
    ensures api == Rest ==> TruthyStr(c)
    ensures hotel.Price.Some? && TruthyStr(hotel.Price.value.CurrencyCode) ==> c == hotel.Price.value.CurrencyCode
    ensures api == Rest && !(hotel.Price.Some? && TruthyStr(hotel.Price.value.CurrencyCode)) ==> c == Value("Unknown")
    ensures api == GraphQL && hotel.Price.Some? ==> c == hotel.Price.value.CurrencyCode
  {
    match api
    case Rest =>
      if hotel.Price.Some? && TruthyStr(hotel.Price.value.CurrencyCode) then hotel.Price.value.CurrencyCode
      else Value("Unknown")
    case GraphQL =>
      if hotel.Price.Some? then hotel.Price.value.CurrencyCode else Value("Unknown")
  }

  /** The currencies differ exactly when a price block has no usable currency
      code: the resolver then passes the missing or empty code through. */
  lemma CurrencyDialectsDiffer(hotel: HotelRecord)
    ensures CurrencyOf(hotel, Rest) != CurrencyOf(hotel, GraphQL) <==>
      hotel.Price.Some? && !TruthyStr(hotel.Price.value.CurrencyCode)
  {
  }

  function FormatRoomType(room: RoomTypeRecord): RoomType {
    RoomType(room.RoomTypeCode, room.RoomTypeName, room.Inclusion, room.BedType,
             MaxOccupancy(room.MaxAdults, room.MaxChild))
  }

  /** `formatRoomTypes`: nothing for a non-array, otherwise one entry per room
      type, in order, carrying its code, name, inclusion, bed type and limits. */
  function FormatRoomTypes(roomTypes: Typed<seq<RoomTypeRecord>>): (r: seq<RoomType>)
    ensures !roomTypes.Is? ==> r == []
    ensures roomTypes.Is? ==> |r| == |roomTypes.v|
    ensures roomTypes.Is? ==> forall i :: 0 <= i < |r| ==>
      && r[i].roomTypeCode == roomTypes.v[i].RoomTypeCode
      && r[i].roomTypeName == roomTypes.v[i].RoomTypeName
      && r[i].inclusion == roomTypes.v[i].Inclusion
      && r[i].bedType == roomTypes.v[i].BedType
      && r[i].maxOccupancy == MaxOccupancy(roomTypes.v[i].MaxAdults, roomTypes.v[i].MaxChild)
  {
    if !roomTypes.Is? then []
    else seq(|roomTypes.v|, i requires 0 <= i < |roomTypes.v| => FormatRoomType(roomTypes.v[i]))
  }

  /** One output hotel: the copied descriptive fields, the price and currency
      of the front end, and list defaults — no facilities or policies give `[]`,
      and the picture becomes a one-element image list only when non-empty. */
  function FormatHotel(hotel: HotelRecord, api: Api): (h: Hotel)
    ensures h.hotelCode == hotel.HotelCode && h.hotelName == hotel.HotelName
    ensures h.hotelCategory == hotel.HotelCategory && h.rating == hotel.Rating
    ensures h.address == hotel.HotelAddress && h.city == hotel.CityName && h.country == hotel.CountryName
    ensures h.latitude == hotel.Latitude && h.longitude == hotel.Longitude
    ensures h.price == PriceOf(hotel, api) && h.currency == CurrencyOf(hotel, api)
    ensures h.roomTypes == FormatRoomTypes(hotel.RoomTypes)
    ensures hotel.HotelFacilities.Value? ==> h.amenities == hotel.HotelFacilities.v
    ensures !hotel.HotelFacilities.Value? ==> h.amenities == []
    ensures hotel.CancellationPolicies.Value? ==> h.cancellationPolicies == hotel.CancellationPolicies.v
    ensures !hotel.CancellationPolicies.Value? ==> h.cancellationPolicies == []
    ensures h.images == if TruthyStr(hotel.HotelPicture) then [hotel.HotelPicture.v] else []
  {
    Hotel(hotel.HotelCode, hotel.HotelName, hotel.HotelCategory, hotel.Rating, hotel.HotelAddress,
          hotel.CityName, hotel.CountryName, PriceOf(hotel, api), CurrencyOf(hotel, api),
          FormatRoomTypes(hotel.RoomTypes), ListOr(hotel.HotelFacilities, []),
          if TruthyStr(hotel.HotelPicture) then [hotel.HotelPicture.v] else [],
          hotel.Latitude, hotel.Longitude, ListOr(hotel.CancellationPolicies, []))
  }

  /** `formatSearchResults`: nothing unless the results carry a
      `HotelResultList` array, otherwise one output hotel per listed hotel, in
      order. */
  function FormatSearchResults(results: SearchResults, api: Api): (r: seq<Hotel>)
    ensures !results.HotelResultList.Is? ==> r == []
    ensures results.HotelResultList.Is? ==> |r| == |results.HotelResultList.v|
    ensures results.HotelResultList.Is? ==> forall i :: 0 <= i < |r| ==>
      r[i] == FormatHotel(results.HotelResultList.v[i], api)
  {
    if !results.HotelResultList.Is? then []
    else
      var list := results.HotelResultList.v;
      seq(|list|, i requires 0 <= i < |list| => FormatHotel(list[i], api))
  }

  /** The two front ends format the same hotels into the same entries except
      for the price and currency. */
  lemma DialectsAgreeElsewhere(results: SearchResults)
    ensures var rest := FormatSearchResults(results, Rest);
      var graph := FormatSearchResults(results, GraphQL);
      |rest| == |graph|
      && forall i :: 0 <= i < |rest| ==>
        rest[i].(price := graph[i].price, currency := graph[i].currency) == graph[i]
  {
  }

  /** Whatever the batch search returns, neither front end formats anything:
      the search result has no `HotelResultList`. */
  lemma SearchOutputIsNeverFormatted(
    codes: seq<string>, checkIn: string, checkOut: string, rooms: seq<RawRoom>,
    nationality: Option<string>, transport: (nat, Payload) -> ApiReply, api: Api)
    ensures FormatSearchResults(SearchHotels(codes, checkIn, checkOut, rooms, nationality, transport).results, api) == []
  {
  }
}

=== FILE: hotel_model.dfy ===
/** `models/HotelModel.js`, `getHotelCodesByCity`: cache-aside lookup of a
    city's hotel codes — cache first, then the store, writing non-empty store
    results back with a one-day expiry. */
module HotelModel {
  import opened Wrappers
  import opened Text

  /** Expiry of a cached code list, in seconds (24 hours). */
  const CODES_TTL_SECONDS := 24 * 60 * 60

  /** A cached value: the parsed code list and its expiry, if one was set. */
  datatype Entry = Entry(codes: seq<string>, ttl: Option<nat>)

  /** The cache as the lookup sees it. `readError`/`writeError` are the errors
      its get and set throw when the cache is failing. */
  datatype Cache = Cache(entries: map<string, Entry>, readError: Option<string>, writeError: Option<string>)

  /** One lookup: what it returns or throws, the cache afterwards, and the
      arguments of the store queries it ran. */
  datatype Lookup = Lookup(result: Result<seq<string>, string>, cache: Cache, queries: seq<string>)

  /** The cache key: `hotel_codes:` and the lower-cased city. */
  function CodesKey(city: string): string {
    "hotel_codes:" + ToLower(city)
  }

  /** `getHotelCodesByCity(city)`. The store (`store`, the SQL query
      `SELECT hotel_code ... WHERE city_name = ?` outside this model) is asked with
      the city exactly as given, the cache with the lower-cased key. A hit returns
      the cached list without touching the store; a miss returns the store's codes
      in row order and caches them for a day only when there are some; cache and
      store errors reach the caller. */
  function GetHotelCodesByCity(city: string, cache: Cache, store: string -> Result<seq<string>, string>): (l: Lookup)
    ensures cache.readError.Some? ==>
      l == Lookup(Failure(cache.readError.value), cache, [])
    ensures cache.readError.None? && CodesKey(city) in cache.entries ==>
      l == Lookup(Success(cache.entries[CodesKey(city)].codes), cache, [])
    ensures cache.readError.None? && CodesKey(city) !in cache.entries ==> l.queries == [city]
    ensures cache.readError.None? && CodesKey(city) !in cache.entries && store(city).Failure? ==>
      l.result == Failure(store(city).error) && l.cache == cache
    ensures cache.readError.None? && CodesKey(city) !in cache.entries && store(city).Success? ==>
      var codes := store(city).value;
      && (|codes| == 0 ==> l.result == Success([]) && l.cache == cache)
      && (|codes| > 0 && cache.writeError.None? ==>
            l.result == Success(codes)
            && l.cache == cache.(entries := cache.entries[CodesKey(city) := Entry(codes, Some(CODES_TTL_SECONDS))]))
      && (|codes| > 0 && cache.writeError.Some? ==>
            l.result == Failure(cache.writeError.value) && l.cache == cache)
  {
    var key := CodesKey(city);
    if cache.readError.Some? then Lookup(Failure(cache.readError.value), cache, [])
    else if key in cache.entries then Lookup(Success(cache.entries[key].codes), cache, [])
    else match store(city)
      case Failure(e) => Lookup(Failure(e), cache, [city])
      case Success(codes) =>
        if |codes| == 0 then Lookup(Success(codes), cache, [city])
        else if cache.writeError.Some? then Lookup(Failure(cache.writeError.value), cache, [city])
        else Lookup(Success(codes), cache.(entries := cache.entries[key := Entry(codes, Some(CODES_TTL_SECONDS))]), [city])
  }

  /** After a miss that found codes, asking again returns the same codes from
      the cache without querying the store, and leaves the cache as it was. */
  lemma SecondLookupHitsCache(city: string, cache: Cache, store: string -> Result<seq<string>, string>)
    requires cache.readError.None?
    requires GetHotelCodesByCity(city, cache, store).result.Success?
    requires |GetHotelCodesByCity(city, cache, store).result.value| > 0
    ensures var first := GetHotelCodesByCity(city, cache, store);
      var second := GetHotelCodesByCity(city, first.cache, store);
      second == Lookup(first.result, first.cache, [])
  {
  }

  /** Cities that differ only in letter case share one cache entry, so a list
      cached for one is returned for the other without a store query. */
  lemma CaseInsensitiveKey(a: string, b: string, cache: Cache, store: string -> Result<seq<string>, string>)
    requires ToLower(a) == ToLower(b)
    requires cache.readError.None? && CodesKey(a) in cache.entries
    ensures GetHotelCodesByCity(b, cache, store) == Lookup(Success(cache.entries[CodesKey(a)].codes), cache, [])
  {
  }
}

=== FILE: js.dfy ===
/** The few JavaScript value distinctions the hotel-search code branches on. */
module Js {

  /** A property of a plain JavaScript object whose type the code never inspects.
      `Absent` is a property the object does not own; `Null` is an owned property
      holding `null` or `undefined`.  Both are falsy; only `hasOwnProperty` tells
      them apart. */
  datatype Field<T> = Absent | Null | Value(v: T)

  /** A property the code inspects with `typeof` or `Array.isArray`: missing
      (`null`/`undefined`), present but of another type, or of the expected type. */
  datatype Typed<T> = Missing | OtherType | Is(v: T)

  /** `obj.hasOwnProperty(name)` */
  predicate Owned<T>(f: Field<T>) {
    !f.Absent?
  }

  /** JavaScript truthiness of a numeric property: present and non-zero. */
  predicate TruthyNum(f: Field<int>) {
    f.Value? && f.v != 0
  }

  /** JavaScript truthiness of a string property: present and non-empty. */
  predicate TruthyStr(f: Field<string>) {
    f.Value? && f.v != ""
  }

  /** `a || b` on two numeric properties: the first truthy one, else `b` as it is. */
  function EitherNum(a: Field<int>, b: Field<int>): (r: Field<int>)
    ensures TruthyNum(r) <==> TruthyNum(a) || TruthyNum(b)
    ensures TruthyNum(a) ==> r == a
    ensures !TruthyNum(a) ==> r == b
  {
    if TruthyNum(a) then a else b
  }

  /** `f || d` for a numeric property and a numeric default. */
  function NumOr(f: Field<int>, d: int): (r: int)
    ensures TruthyNum(f) ==> r == f.v
    ensures !TruthyNum(f) ==> r == d
  {
    if TruthyNum(f) then f.v else d
  }

  /** `f || d` for an array property: every array, even an empty one, is truthy. */
  function ListOr<T>(f: Field<seq<T>>, d: seq<T>): (r: seq<T>)
    ensures f.Value? ==> r == f.v
    ensures !f.Value? ==> r == d
  {
    if f.Value? then f.v else d
  }

  /** `String(x)` for an optional string: `undefined` renders as the word itself. */
  function Render(s: Field<string>): string {
    if s.Value? then s.v else if s.Null? then "null" else "undefined"
  }
}

=== FILE: redis_loader.dfy ===
/** `scripts/loadHotelsToRedis.js`: the one-off script that folds the hotel
    table's rows into two families of cache entries, `hotelname:<name>` (one
    hotel code) and `cityname:<city>` (the city's code list). */
module RedisLoader {
  import opened Wrappers
  import opened Js
  import opened Text

  /** One row of the hotel table as the script selects it. */
  datatype Row = Row(
    hotel_code: string, hotel_name: Field<string>, city_code: Field<string>, city_name: Field<string>)

  /** The entries the script writes. The two families live in one cache but
      their prefixes keep the keys apart, so they are kept as two maps here.
      A city list is the parsed form of its JSON array. */
  datatype Index = Index(names: map<string, string>, cities: map<string, seq<string>>)

  /** `field?.toLowerCase()` is truthy. */
  predicate Named(f: Field<string>) {
    f.Value? && ToLower(f.v) != ""
  }

  /** A row takes part only when its lower-cased hotel name, city code and city
      name are all non-empty. */
  predicate Kept(row: Row) {
    Named(row.hotel_name) && Named(row.city_code) && Named(row.city_name)
  }

  function NameKey(row: Row): string
    requires Kept(row)
  {
    "hotelname:" + ToLower(row.hotel_name.v)
  }

  function CityKey(row: Row): string
    requires Kept(row)
  {
    "cityname:" + ToLower(row.city_name.v)
  }

  /** `list.push(x)` unless `list.includes(x)`. */
  function AddNew(list: seq<string>, x: string): seq<string> {
    if x in list then list else list + [x]
  }

  predicate NoDup(s: seq<string>) {
    forall i, j :: 0 <= i < j < |s| ==> s[i] != s[j]
  }

  /** `AddNew` of every element of `ys`, in order. */
  function AppendNew(xs: seq<string>, ys: seq<string>): (r: seq<string>)
    ensures NoDup(xs) ==> NoDup(r)
    ensures forall x :: x in r <==> x in xs || x in ys
    ensures |xs| <= |r| && r[..|xs|] == xs
    decreases |ys|
  {
    if |ys| == 0 then xs
    else
      var prefix := AppendNew(xs, ys[..|ys| - 1]);
      assert forall x :: x in ys <==> x in ys[..|ys| - 1] || x == ys[|ys| - 1] by {
        assert ys == ys[..|ys| - 1] + [ys[|ys| - 1]];
      }
      AddNew(prefix, ys[|ys| - 1])
  }

  /** The distinct elements of `s`, each at its first occurrence. */
  function Dedup(s: seq<string>): seq<string> {
    AppendNew([], s)
  }

  lemma {:induction false} AppendNewConcat(a: seq<string>, xs: seq<string>, ys: seq<string>)
    ensures AppendNew(a, xs + ys) == AppendNew(AppendNew(a, xs), ys)
    decreases |ys|
  {
    if |ys| == 0 {
      assert xs + ys == xs;
    } else {
      var init := ys[..|ys| - 1];
      assert (xs + ys)[..|xs + ys| - 1] == xs + init;
      AppendNewConcat(a, xs, init);
    }
  }

  lemma {:induction false} AppendNewDistinct(xs: seq<string>)
    requires NoDup(xs)
    ensures AppendNew([], xs) == xs
    decreases |xs|
  {
    if |xs| > 0 {
      var init := xs[..|xs| - 1];
      AppendNewDistinct(init);
      assert xs[|xs| - 1] !in init;
      assert init + [xs[|xs| - 1]] == xs;
    }
  }

  /** Appending the new elements of `ys` to a duplicate-free list is removing
      the later duplicates from the concatenation. */
  lemma AppendNewIsDedup(xs: seq<string>, ys: seq<string>)
    requires NoDup(xs)
    ensures AppendNew(xs, ys) == Dedup(xs + ys)
  {
    AppendNewConcat([], xs, ys);
    AppendNewDistinct(xs);
  }

  /** The position of the first occurrence of `x` in `s`. */
  function FirstIndex(s: seq<string>, x: string): (i: nat)
    requires x in s
    ensures i < |s| && s[i] == x && x !in s[..i]
  {
    if s[0] == x then 0 else FirstIndex(s[1..], x) + 1
  }

  lemma {:induction false} FirstIndexExtend(s: seq<string>, y: string, x: string)
    requires x in s
    ensures FirstIndex(s + [y], x) == FirstIndex(s, x)
    decreases |s|
  {
    if s[0] != x {
      assert (s + [y])[1..] == s[1..] + [y];
      FirstIndexExtend(s[1..], y, x);
    }
  }

  lemma {:induction false} FirstIndexNew(s: seq<string>, y: string)
    requires y !in s
    ensures FirstIndex(s + [y], y) == |s|
    decreases |s|
  {
    if |s| > 0 {
      assert (s + [y])[1..] == s[1..] + [y];
      FirstIndexNew(s[1..], y);
    }
  }

  /** `Dedup` keeps the order of first occurrences. */
  lemma {:induction false} DedupKeepsFirstOrder(s: seq<string>)
    ensures var d := Dedup(s);
      forall i, j :: 0 <= i < j < |d| ==> FirstIndex(s, d[i]) < FirstIndex(s, d[j])
    decreases |s|
  {
    if |s| > 0 {
      var init := s[..|s| - 1];
      var y := s[|s| - 1];
      assert s == init + [y];
      DedupKeepsFirstOrder(init);
      var prev := Dedup(init);
      var d := Dedup(s);
      assert d == AddNew(prev, y);
      forall i, j | 0 <= i < j < |d|
        ensures FirstIndex(s, d[i]) < FirstIndex(s, d[j])
      {
        assert d[i] == prev[i] && prev[i] in prev;
        FirstIndexExtend(init, y, prev[i]);
        if j < |prev| {
          assert d[j] == prev[j] && prev[j] in prev;
          FirstIndexExtend(init, y, prev[j]);
        } else {
          assert y !in prev && d[j] == y && y !in init;
          FirstIndexNew(init, y);
        }
      }
    }
  }

  /** One iteration of the loop. Skipped rows change nothing; a kept row
      overwrites its name entry and adds its code to its city's list when the
      list does not hold it yet. */
  function Step(index: Index, row: Row): (r: Index)
    ensures !Kept(row) ==> r == index
    ensures Kept(row) ==> r.names == index.names[NameKey(row) := row.hotel_code]
    ensures Kept(row) ==>
      (CityKey(row) in r.cities && r.cities[CityKey(row)] == AddNew(Existing(index, CityKey(row)), row.hotel_code))
    ensures Kept(row) ==> r.cities.Keys == index.cities.Keys + {CityKey(row)}
    ensures Kept(row) ==> forall key :: key in index.cities && key != CityKey(row) ==>
      r.cities[key] == index.cities[key]
  {
    if !Kept(row) then index
    else
      var cityKey := CityKey(row);
      var codes := Existing(index, cityKey);
      var cities := if row.hotel_code in codes then index.cities
        else index.cities[cityKey := codes + [row.hotel_code]];
      Index(index.names[NameKey(row) := row.hotel_code], cities)
  }

  /** A city's list before the step: the parsed entry, or `[]` when there is none. */
  function Existing(index: Index, key: string): seq<string> {
    if key in index.cities then index.cities[key] else []
  }

  /** The loop over all rows, starting from whatever the cache already held. */
  function Load(rows: seq<Row>, index: Index): Index
    decreases |rows|
  {
    if |rows| == 0 then index else Step(Load(rows[..|rows| - 1], index), rows[|rows| - 1])
  }

  /** The code of the last kept row whose name entry is `key`. */
  function LastCode(rows: seq<Row>, key: string): (r: Option<string>)
    decreases |rows|
  {
    if |rows| == 0 then None
    else
      var row := rows[|rows| - 1];
      if Kept(row) && NameKey(row) == key then Some(row.hotel_code) else LastCode(rows[..|rows| - 1], key)
  }

  /** The codes of the kept rows of the city entry `key`, in row order. */
  function CodesFor(rows: seq<Row>, key: string): seq<string>
    decreases |rows|
  {
    if |rows| == 0 then []
    else
      var row := rows[|rows| - 1];
      CodesFor(rows[..|rows| - 1], key) + (if Kept(row) && CityKey(row) == key then [row.hotel_code] else [])
  }

  /** Name entries are last-write-wins: each holds the code of the last kept
      row with that lower-cased name, and entries no row names stay as they were. */
  lemma {:induction false} NamesAreLastWriteWins(rows: seq<Row>, index: Index, key: string)
    ensures LastCode(rows, key).Some? ==>
      key in Load(rows, index).names && Load(rows, index).names[key] == LastCode(rows, key).value
    ensures LastCode(rows, key).None? ==>
      (key in Load(rows, index).names <==> key in index.names)
      && (key in index.names ==> Load(rows, index).names[key] == index.names[key])
    decreases |rows|
  {
    if |rows| > 0 {
      NamesAreLastWriteWins(rows[..|rows| - 1], index, key);
    }
  }

  /** What one step does to the city entry `key`. */
  lemma StepCity(index: Index, row: Row, key: string)
    ensures key in Step(index, row).cities <==> key in index.cities || (Kept(row) && CityKey(row) == key)
    ensures Existing(Step(index, row), key) ==
      if Kept(row) && CityKey(row) == key then AddNew(Existing(index, key), row.hotel_code)
      else Existing(index, key)
  {
  }

  /** Each city list ends up as the old list with the new codes of that city's
      kept rows appended in row order, each code once. */
  lemma {:induction false} CityListIsAppendNew(rows: seq<Row>, index: Index, key: string)
    ensures key in Load(rows, index).cities <==> key in index.cities || |CodesFor(rows, key)| > 0
    ensures Existing(Load(rows, index), key) == AppendNew(Existing(index, key), CodesFor(rows, key))
    decreases |rows|
  {
    if |rows| > 0 {
      var init := rows[..|rows| - 1];
      CityListIsAppendNew(init, index, key);
      var row := rows[|rows| - 1];
      var before := Load(init, index);
      var codes := CodesFor(init, key);
      assert Load(rows, index) == Step(before, row);
      StepCity(before, row, key);
      if Kept(row) && CityKey(row) == key {
        assert CodesFor(rows, key) == codes + [row.hotel_code];
        assert (codes + [row.hotel_code])[..|codes|] == codes;
      } else {
        assert CodesFor(rows, key) == codes + [];
        assert codes + [] == codes;
      }
    }
  }

  /** The properties of a city list the script promises: starting from a
      duplicate-free list (or none), it stays duplicate-free, holds exactly the
      old codes and the codes of the city's kept rows, and is the
      first-occurrence order of the old list followed by those codes. */
  lemma CityListsAreDistinct(rows: seq<Row>, index: Index, key: string)
    requires NoDup(Existing(index, key))
    requires key in Load(rows, index).cities
    ensures var list := Load(rows, index).cities[key];
      && NoDup(list)
      && (forall c :: c in list <==> c in Existing(index, key) || c in CodesFor(rows, key))
      && list == Dedup(Existing(index, key) + CodesFor(rows, key))
  {
    CityListIsAppendNew(rows, index, key);
    assert Load(rows, index).cities[key] == Existing(Load(rows, index), key);
    AppendNewIsDedup(Existing(index, key), CodesFor(rows, key));
  }

  /** Every entry the loop adds is keyed by a kept row's lower-cased hotel name
      or city name under its prefix. */
  lemma {:induction false} NewKeysComeFromRows(rows: seq<Row>, index: Index)
    ensures forall key :: key in Load(rows, index).names ==>
      key in index.names || exists i :: 0 <= i < |rows| && Kept(rows[i]) && key == NameKey(rows[i])
    ensures forall key :: key in Load(rows, index).cities ==>
      key in index.cities || exists i :: 0 <= i < |rows| && Kept(rows[i]) && key == CityKey(rows[i])
    decreases |rows|
  {
    if |rows| > 0 {
      var init := rows[..|rows| - 1];
      NewKeysComeFromRows(init, index);
      forall i | 0 <= i < |init|
        ensures init[i] == rows[i]
      {
      }
    }
  }
}

=== FILE: search_endpoints.dfy ===
/** The two search front ends, `searchHotels` of the REST controller
    (`controllers/HotelController.js`) and of the GraphQL resolver
    (`graphql/resolvers.js`): validate, look the city's codes up through the
    cache-aside model, run the batch search, format. They share this flow and
    differ in the response they build from it and in the formatting dialect. */
module SearchEndpoints {
  import opened Wrappers
  import opened Shapes
  import opened Dates
  import opened Js
  import opened Batching
  import opened Validator
  import HotelModel
  import TboApiService
  import opened Formatting

  /** How one search ends: rejected by the validator, no codes for the city,
      searched (with the formatted hotels), or an error thrown on the way. */
  datatype Outcome =
    | Rejected(errors: seq<ValidationError>)
    | NoHotels(city: string)
    | Searched(hotels: seq<Hotel>)
    | Threw(message: string)

  /** The outcome with what the flow did to the outside world: the cache after
      the lookup, the store queries, and the upstream requests sent. */
  datatype Exchange = Exchange(
    outcome: Outcome, cache: HotelModel.Cache, queries: seq<string>, requests: seq<Payload>)

  /** The city the flow looks up; only read once validation has passed, which
      guarantees a string. */
  function CityOf(params: SearchParams): string {
    if params.cityName.Is? then params.cityName.v else ""
  }

  /** The flow once validation has passed: the cache-aside lookup of `city`,
      then, for a non-empty code list, the batch search without a nationality,
      so the default one is sent. */
  function SearchCity(
    city: string, checkIn: string, checkOut: string, rooms: seq<RawRoom>, api: Api, cache: HotelModel.Cache,
    store: string -> Result<seq<string>, string>,
    transport: (nat, Payload) -> TboApiService.ApiReply): (x: Exchange)
    ensures var l := HotelModel.GetHotelCodesByCity(city, cache, store);
      && !x.outcome.Rejected?
      && x.cache == l.cache && x.queries == l.queries
      && (x.outcome.Threw? <==> l.result.Failure?)
      && (x.outcome.Threw? ==> x.outcome.message == l.result.error)
      && (x.outcome.NoHotels? <==> l.result == Success([]))
      && (x.outcome.NoHotels? ==> x.outcome.city == city)
      && (x.outcome.Searched? ==>
            && |x.requests| == |Chunks(l.result.value, TboApiService.CHUNK_SIZE)| > 0
            && x.requests == TboApiService.SearchHotels(l.result.value, checkIn, checkOut, rooms, None, transport).requests)
    ensures x.outcome.Searched? ==> forall k :: 0 <= k < |x.requests| ==>
      && x.requests[k].GuestNationality == TboApiService.DEFAULT_NATIONALITY
      && x.requests[k].CheckIn == checkIn && x.requests[k].CheckOut == checkOut
      && x.requests[k].PaxRooms == TboApiService.NormalizeRooms(rooms)
    ensures !x.outcome.Searched? ==> x.requests == []
    ensures x.outcome.Searched? ==> x.outcome.hotels == []
  {
    var lookup := HotelModel.GetHotelCodesByCity(city, cache, store);
    match lookup.result
    case Failure(e) => Exchange(Threw(e), lookup.cache, lookup.queries, [])
    case Success(codes) =>
      if |codes| == 0 then Exchange(NoHotels(city), lookup.cache, lookup.queries, [])
      else
        var search := TboApiService.SearchHotels(codes, checkIn, checkOut, rooms, None, transport);
        Exchange(Searched(FormatSearchResults(search.results, api)), lookup.cache, lookup.queries, search.requests)
  }

  /** The shared flow of both front ends: validate, then search. `today` stands
      for the clock, `store` for the SQL query and `transport` for the upstream
      POSTs. */
  function SearchFlow(
    params: SearchParams, today: Date, api: Api, cache: HotelModel.Cache,
    store: string -> Result<seq<string>, string>,
    transport: (nat, Payload) -> TboApiService.ApiReply): (x: Exchange)
    // Invalid parameters: the validator's errors, and no lookup and no request.
    ensures !ValidateSearchParams(params, today).isValid <==> x.outcome.Rejected?
    ensures x.outcome.Rejected? ==>
      && x.outcome.errors == ValidateSearchParams(params, today).errors
      && x.cache == cache && x.queries == [] && x.requests == []
    // Valid parameters: exactly the cache-aside lookup of the city as given.
    ensures !x.outcome.Rejected? ==>
      var l := HotelModel.GetHotelCodesByCity(CityOf(params), cache, store);
      && params.cityName.Is? && params.checkInDate.Some? && params.checkOutDate.Some? && params.rooms.Is?
      && x.cache == l.cache && x.queries == l.queries
      && (x.outcome.Threw? <==> l.result.Failure?)
      && (x.outcome.Threw? ==> x.outcome.message == l.result.error)
      && (x.outcome.NoHotels? <==> l.result == Success([]))
      && (x.outcome.NoHotels? ==> x.outcome.city == params.cityName.v)
      && (x.outcome.Searched? ==>
            && |x.requests| == |Chunks(l.result.value, TboApiService.CHUNK_SIZE)| > 0
            && x.requests == TboApiService.SearchHotels(
                 l.result.value, params.checkInDate.value, params.checkOutDate.value, params.rooms.v, None, transport).requests)
    // Every request carries the validated dates, the default nationality and
    // the normalised rooms.
    ensures x.outcome.Searched? ==>
      && params.checkInDate.Some? && params.checkOutDate.Some? && params.rooms.Is?
      && (forall k :: 0 <= k < |x.requests| ==>
            && x.requests[k].GuestNationality == TboApiService.DEFAULT_NATIONALITY
            && x.requests[k].CheckIn == params.checkInDate.value
            && x.requests[k].CheckOut == params.checkOutDate.value
            && x.requests[k].PaxRooms == TboApiService.NormalizeRooms(params.rooms.v))
    // Nothing but a search sends requests, and a search never yields a hotel.
    ensures !x.outcome.Searched? ==> x.requests == []
    ensures x.outcome.Searched? ==> x.outcome.hotels == []
  {
    var v := ValidateSearchParams(params, today);
    if !v.isValid then Exchange(Rejected(v.errors), cache, [], [])
    else
      ValidParamsArePresent(params, today);
      SearchCity(params.cityName.v, params.checkInDate.value, params.checkOutDate.value, params.rooms.v,
                 api, cache, store, transport)
  }

  /** The REST response: status code and JSON body. */
  datatype RestResponse =
    | BadRequest(errors: seq<ValidationError>)
    | Ok(message: string, data: seq<Hotel>)
    | ServerError(error: string)
  {
    function Status(): nat {
      match this
      case BadRequest(_) => 400
      case Ok(_, _) => 200
      case ServerError(_) => 500
    }

    function Success(): bool {
      Ok?
    }

    function Message(): string {
      match this
      case BadRequest(_) => "Invalid search parameters"
      case Ok(m, _) => m
      case ServerError(_) => "An error occurred while searching for hotels"
    }
  }

  /** The GraphQL reply object. */
  datatype GraphQLReply = GraphQLReply(success: bool, message: string, data: seq<Hotel>)

  function NoHotelsMessage(city: string): string {
    "No hotels found in " + city
  }

  const COMPLETED := "Hotel search completed successfully"

  /** The REST controller's `searchHotels`. */
  function RestSearch(
    params: SearchParams, today: Date, cache: HotelModel.Cache,
    store: string -> Result<seq<string>, string>,
    transport: (nat, Payload) -> TboApiService.ApiReply): (r: RestResponse)
    ensures r.Status() == 400 <==> !ValidateSearchParams(params, today).isValid
    ensures r.Status() == 400 ==> r.errors == ValidateSearchParams(params, today).errors
    ensures r.Status() == 500 <==> SearchFlow(params, today, Rest, cache, store, transport).outcome.Threw?
    ensures r.Success() ==> r.data == []
  {
    match SearchFlow(params, today, Rest, cache, store, transport).outcome
    case Rejected(errors) => BadRequest(errors)
    case NoHotels(city) => Ok(NoHotelsMessage(city), [])
    case Searched(hotels) => Ok(COMPLETED, hotels)
    case Threw(message) => ServerError(message)
  }

  /** The GraphQL resolver's `searchHotels`: every thrown error is caught and
      becomes an unsuccessful reply with no data. */
  function GraphQLSearch(
    params: SearchParams, today: Date, cache: HotelModel.Cache,
    store: string -> Result<seq<string>, string>,
    transport: (nat, Payload) -> TboApiService.ApiReply): (r: GraphQLReply)
    ensures r.data == []
    ensures !r.success <==>
      var o := SearchFlow(params, today, GraphQL, cache, store, transport).outcome;
      o.Rejected? || o.Threw?
    ensures !r.success ==>
      r.message in {"Invalid search parameters", "An error occurred while searching for hotels"}
  {
    match SearchFlow(params, today, GraphQL, cache, store, transport).outcome
    case Rejected(_) => GraphQLReply(false, "Invalid search parameters", [])
    case NoHotels(city) => GraphQLReply(true, NoHotelsMessage(city), [])
    case Searched(hotels) => GraphQLReply(true, COMPLETED, hotels)
    case Threw(_) => GraphQLReply(false, "An error occurred while searching for hotels", [])
  }

  /** Both front ends report success for a valid search of a city with no
      codes, with no request sent. */
  lemma EmptyCityIsSuccess(
    params: SearchParams, today: Date, cache: HotelModel.Cache,
    store: string -> Result<seq<string>, string>,
    transport: (nat, Payload) -> TboApiService.ApiReply)
    ensures ValidateSearchParams(params, today).isValid &&
            HotelModel.GetHotelCodesByCity(CityOf(params), cache, store).result == Success([]) ==>
      && RestSearch(params, today, cache, store, transport) == Ok(NoHotelsMessage(CityOf(params)), [])
      && GraphQLSearch(params, today, cache, store, transport) == GraphQLReply(true, NoHotelsMessage(CityOf(params)), [])
      && SearchFlow(params, today, Rest, cache, store, transport).requests == []
  {
  }

  /** Both front ends agree on success: they succeed on the same inputs. */
  lemma FrontEndsAgreeOnSuccess(
    params: SearchParams, today: Date, cache: HotelModel.Cache,
    store: string -> Result<seq<string>, string>,
    transport: (nat, Payload) -> TboApiService.ApiReply)
    ensures RestSearch(params, today, cache, store, transport).Success()
        == GraphQLSearch(params, today, cache, store, transport).success
  {
  }

  /** Rooms written in the validator's convention pass validation on
      `NoOfAdults`, but every request the search sends carries one adult per
      room, whatever `NoOfAdults` said. */
  lemma ValidatedRoomsAreSentWithOneAdult(
    params: SearchParams, today: Date, api: Api, cache: HotelModel.Cache,
    store: string -> Result<seq<string>, string>,
    transport: (nat, Payload) -> TboApiService.ApiReply)
    requires params.rooms.Is?
    requires forall i :: 0 <= i < |params.rooms.v| ==>
      !TruthyNum(params.rooms.v[i].Adults) && !TruthyNum(params.rooms.v[i].adults)
    ensures var x := SearchFlow(params, today, api, cache, store, transport);
      forall k, j :: 0 <= k < |x.requests| && 0 <= j < |x.requests[k].PaxRooms| ==>
        |x.requests[k].PaxRooms| == |params.rooms.v| && x.requests[k].PaxRooms[j].Adults == 1
  {
    TboApiService.ValidatorRoomsNormaliseToOneAdult(params.rooms.v);
  }
}

=== FILE: shapes.dfy ===
/** The records that cross file boundaries in the hotel search: the room
    objects callers send, the room and request shapes sent upstream, and the
    hotel records the upstream availability service returns. */
module Shapes {
  import opened Wrappers
  import opened Js

  /** A caller-supplied room object. Three naming conventions reach the code:
      `Adults`/`Children`/`ChildrenAges`, `adults`/`children`/`childrenAges`, and
      the validator's `NoOfAdults`/`NoOfChild`/`ChildAge`. */
  datatype RawRoom = RawRoom(
    Adults: Field<int>, adults: Field<int>,
    Children: Field<int>, children: Field<int>,
    ChildrenAges: Field<seq<int>>, childrenAges: Field<seq<int>>,
    NoOfAdults: Field<int>, NoOfChild: Field<int>, ChildAge: Typed<seq<int>>)

  /** One entry of the request's `PaxRooms`; `ChildrenAges` is `None` where the
      request carries `null`. */
  datatype PaxRoom = PaxRoom(Adults: int, Children: int, ChildrenAges: Option<seq<int>>)

  /** The request's `Filters` block; `HotelName` is `None` where it is `null`. */
  datatype Filters = Filters(
    Refundable: bool, NoOfRooms: int, MealType: int, OrderBy: int, StarRating: int,
    HotelName: Option<string>)

  /** The "no filtering" block both request builders send. */
  function NoFilters(hotelName: Option<string>): Filters {
    Filters(false, 0, 0, 0, 0, hotelName)
  }

  /** The JSON body of one availability request. `ResponseTime` is the
      response-time hint in seconds (23 in both builders). */
  datatype Payload = Payload(
    CheckIn: string, CheckOut: string, HotelCodes: string, GuestNationality: string,
    PaxRooms: seq<PaxRoom>, ResponseTime: int, IsDetailedResponse: bool, Filters: Filters)

  datatype PriceInfo = PriceInfo(
    OfferedPrice: Field<int>, PublishedPrice: Field<int>, CurrencyCode: Field<string>)

  datatype RoomTypeRecord = RoomTypeRecord(
    RoomTypeCode: Field<string>, RoomTypeName: Field<string>, Inclusion: Field<string>,
    BedType: Field<string>, MaxAdults: Field<int>, MaxChild: Field<int>)

  /** One hotel as the upstream service describes it. `Price` is `None` when the
      property is missing or falsy. Fields the code only copies are kept as text. */
  datatype HotelRecord = HotelRecord(
    HotelCode: Field<string>, HotelName: Field<string>, HotelCategory: Field<string>,
    Rating: Field<string>, HotelAddress: Field<string>, CityName: Field<string>,
    CountryName: Field<string>, Price: Option<PriceInfo>, RoomTypes: Typed<seq<RoomTypeRecord>>,
    HotelFacilities: Field<seq<string>>, HotelPicture: Field<string>,
    Latitude: Field<string>, Longitude: Field<string>, CancellationPolicies: Field<seq<string>>)
}

=== FILE: tbo_api_service.dfy ===
/** `services/TboApiService.js`: the batch search over a city's hotel codes —
    chunking, room normalisation, one request per chunk, and the merge of the
    batches that came back. */
module TboApiService {
  import opened Wrappers
  import opened Js
  import opened Text
  import opened Shapes
  import opened Batching
  import TboService

  /** Hotel codes per request in this service. */
  const CHUNK_SIZE := 100
  const DEFAULT_NATIONALITY := "IN"

  /** Normalises one room, preferring the lower-case field names:
      `adults || Adults || 1` (then raised to 1 if below 1),
      `children || Children || 0`, `childrenAges || ChildrenAges || []`. */
  function NormalizeRoom(room: RawRoom): (p: PaxRoom)
    ensures p.Adults >= 1
    ensures TruthyNum(room.adults) && room.adults.v >= 1 ==> p.Adults == room.adults.v
    ensures TruthyNum(room.adults) && room.adults.v < 1 ==> p.Adults == 1
    ensures !TruthyNum(room.adults) && TruthyNum(room.Adults) && room.Adults.v >= 1 ==> p.Adults == room.Adults.v
    ensures !TruthyNum(room.adults) && TruthyNum(room.Adults) && room.Adults.v < 1 ==> p.Adults == 1
    ensures !TruthyNum(room.adults) && !TruthyNum(room.Adults) ==> p.Adults == 1
    ensures TruthyNum(room.children) ==> p.Children == room.children.v
    ensures !TruthyNum(room.children) && TruthyNum(room.Children) ==> p.Children == room.Children.v
    ensures !TruthyNum(room.children) && !TruthyNum(room.Children) ==> p.Children == 0
    ensures p.ChildrenAges == Some(ListOr(room.childrenAges, ListOr(room.ChildrenAges, [])))
  {
    var adults := NumOr(room.adults, NumOr(room.Adults, 1));
    PaxRoom(if adults < 1 then 1 else adults,
            NumOr(room.children, NumOr(room.Children, 0)),
            Some(ListOr(room.childrenAges, ListOr(room.ChildrenAges, []))))
  }

  function NormalizeRooms(rooms: seq<RawRoom>): (r: seq<PaxRoom>)
    ensures |r| == |rooms|
    ensures forall i :: 0 <= i < |rooms| ==> r[i] == NormalizeRoom(rooms[i])
  {
    seq(|rooms|, i requires 0 <= i < |rooms| => NormalizeRoom(rooms[i]))
  }

  /** The request for one chunk. Unlike the single-request builder, `HotelName`
      is `null` and the nationality is the caller's. */
  function BuildRequest(chunk: seq<string>, checkIn: string, checkOut: string, rooms: seq<PaxRoom>, nationality: string): Payload
  {
    Payload(checkIn, checkOut, Join(chunk, ','), nationality, rooms, TboService.RESPONSE_TIME, true, NoFilters(None))
  }

  /** A batch response body; `None` stands for a falsy `res.data`. */
  datatype ApiBody = ApiBody(HotelSearchResult: Option<seq<HotelRecord>>)

  /** What one request ends in: the response data, or a rejection that the
      request's `catch` turns into `null`. */
  datatype ApiReply = Delivered(data: Option<ApiBody>) | Rejected

  /** The object the search resolves to, seen through the two properties its
      readers look up. */
  datatype SearchResults = SearchResults(
    HotelSearchResult: Typed<seq<HotelRecord>>, HotelResultList: Typed<seq<HotelRecord>>)

  datatype BatchSearch = BatchSearch(results: SearchResults, requests: seq<Payload>)

  /** What one reply adds to the merged list: nothing for a rejection or falsy
      data (dropped by `filter(Boolean)`), else its `HotelSearchResult || []`. */
  function Contribution(reply: ApiReply): seq<HotelRecord> {
    if reply.Delivered? && reply.data.Some? then reply.data.value.HotelSearchResult.GetOr([]) else []
  }

  /** `results.filter(Boolean).flatMap(r => r.HotelSearchResult || [])` */
  function Combine(replies: seq<ApiReply>): (r: seq<HotelRecord>)
  {
    if |replies| == 0 then [] else Contribution(replies[0]) + Combine(replies[1..])
  }

  lemma {:induction false} CombineAppend(a: seq<ApiReply>, b: seq<ApiReply>)
    ensures Combine(a + b) == Combine(a) + Combine(b)
    decreases |a|
  {
    if |a| == 0 {
      assert a + b == b;
    } else {
      assert (a + b)[1..] == a[1..] + b;
      CombineAppend(a[1..], b);
    }
  }

  /** A failed batch is isolated: removing it from the replies changes nothing
      in the merged list. */
  lemma FailedBatchIsDropped(before: seq<ApiReply>, after: seq<ApiReply>)
    ensures Combine(before + [Rejected] + after) == Combine(before + after)
  {
    CombineAppend(before + [Rejected], after);
    CombineAppend(before, [Rejected]);
    CombineAppend(before, after);
    assert Combine([Rejected]) == [];
  }

  /** The merged list is the concatenation, in chunk order, of the result lists
      of the batches whose response had data. */
  lemma {:induction false} CombineIsDeliveredInOrder(replies: seq<ApiReply>, k: nat)
    requires k < |replies|
    requires replies[k].Delivered? && replies[k].data.Some?
    ensures Combine(replies) ==
      Combine(replies[..k]) + replies[k].data.value.HotelSearchResult.GetOr([]) + Combine(replies[k + 1..])
  {
    assert replies == replies[..k] + [replies[k]] + replies[k + 1..];
    CombineAppend(replies[..k] + [replies[k]], replies[k + 1..]);
    CombineAppend(replies[..k], [replies[k]]);
    assert Combine([replies[k]]) == Contribution(replies[k]);
  }

  /** The replies of all requests, request `k` sent as the `k`-th POST. */
  function Dispatch(requests: seq<Payload>, transport: (nat, Payload) -> ApiReply): (r: seq<ApiReply>)
    ensures |r| == |requests|
    ensures forall k :: 0 <= k < |requests| ==> r[k] == transport(k, requests[k])
  {
    seq(|requests|, k requires 0 <= k < |requests| => transport(k, requests[k]))
  }

  /** `searchHotels`: no chunks means no request and an empty result; otherwise
      one request per chunk of at most 100 codes, every request carrying its
      chunk's codes comma-joined and the same normalised rooms, and the result
      the merge of the replies in chunk order. The object has no
      `HotelResultList` property. `transport` stands for the POST of request
      `k`. */
  function SearchHotels(
    codes: seq<string>, checkIn: string, checkOut: string, rooms: seq<RawRoom>,
    nationality: Option<string>, transport: (nat, Payload) -> ApiReply): (r: BatchSearch)
    ensures |codes| == 0 ==> r.requests == [] && r.results.HotelSearchResult == Is([])
    ensures |r.requests| == |Chunks(codes, CHUNK_SIZE)|
    ensures forall k :: 0 <= k < |r.requests| ==>
      && r.requests[k].HotelCodes == Join(Chunks(codes, CHUNK_SIZE)[k], ',')
      && r.requests[k].PaxRooms == NormalizeRooms(rooms)
      && r.requests[k].GuestNationality == nationality.GetOr(DEFAULT_NATIONALITY)
      && r.requests[k].CheckIn == checkIn && r.requests[k].CheckOut == checkOut
      && r.requests[k].ResponseTime == TboService.RESPONSE_TIME && r.requests[k].IsDetailedResponse
      && r.requests[k].Filters == NoFilters(None)
    ensures r.results.HotelSearchResult == Is(Combine(Dispatch(r.requests, transport)))
    ensures r.results.HotelResultList == Missing
  {
    var chunks := Chunks(codes, CHUNK_SIZE);
    if |chunks| == 0 then
      BatchSearch(SearchResults(Is([]), Missing), [])
    else
      var normalized := NormalizeRooms(rooms);
      var nat' := nationality.GetOr(DEFAULT_NATIONALITY);
      var requests := seq(|chunks|, k requires 0 <= k < |chunks| =>
        BuildRequest(chunks[k], checkIn, checkOut, normalized, nat'));
      BatchSearch(SearchResults(Is(Combine(Dispatch(requests, transport))), Missing), requests)
  }

  /** Reasons `getHotelDetailsByCity` throws. */
  datatype DetailsError = RoomsRequired | NoCodes(city: string) | ClientNotCallable
  {
    function Message(): string {
      match this
      case RoomsRequired => "Rooms data is required"
      case NoCodes(city) => "No hotel codes found for city: " + city
      case ClientNotCallable => "redisClient.get is not a function"
    }
  }

  /** The cache key of a city's code list: `hotels:` and the lower-cased name. */
  function CityKey(city: string): string {
    "hotels:" + ToLower(city)
  }

  /** The properties of the object `require('../config/redis')` yields: the
      module exports a client handle and two helpers, not the client itself. */
  const REDIS_MODULE_EXPORTS: set<string> := {"redisClient", "getAsync", "setAsync"}

  /** `redisClient.get(key)` where `redisClient` is an object with properties
      `members`: a `TypeError` when it has no `get`, else the cached list, if any. */
  function CacheGet(members: set<string>, cache: map<string, seq<string>>, key: string): (r: Result<Option<seq<string>>, DetailsError>)
    ensures "get" !in members ==> r == Failure(ClientNotCallable)
    ensures "get" in members ==> r.Success? && (r.value.Some? <==> key in cache)
  {
    if "get" !in members then Failure(ClientNotCallable)
    else if key in cache then Success(Some(cache[key]))
    else Success(None)
  }

  /** `getHotelDetailsByCity` as written: the cache read goes through the module
      object, which has no `get`, so every call that passes the room check throws. */
  function GetHotelDetailsByCityAsWritten(
    city: string, checkIn: string, checkOut: string, rooms: Option<seq<RawRoom>>,
    nationality: Option<string>, cache: map<string, seq<string>>,
    transport: (nat, Payload) -> ApiReply): (r: Result<BatchSearch, DetailsError>)
    ensures rooms.None? || |rooms.value| == 0 ==> r == Failure(RoomsRequired)
    ensures rooms.Some? && |rooms.value| > 0 ==> r == Failure(ClientNotCallable)
  {
    DetailsFlow(REDIS_MODULE_EXPORTS, city, checkIn, checkOut, rooms, nationality, cache, transport)
  }

  /** `getHotelDetailsByCity` with the cache read reaching a real client: the
      rooms must be present and non-empty, the codes come only from the cache
      under `hotels:<lower-cased city>` — a miss or an empty list is an error,
      with no fallback to the store — and the search runs on exactly those codes. */
  function GetHotelDetailsByCity(
    city: string, checkIn: string, checkOut: string, rooms: Option<seq<RawRoom>>,
    nationality: Option<string>, cache: map<string, seq<string>>,
    transport: (nat, Payload) -> ApiReply): (r: Result<BatchSearch, DetailsError>)
    ensures rooms.None? || |rooms.value| == 0 ==> r == Failure(RoomsRequired)
    ensures rooms.Some? && |rooms.value| > 0 ==>
      (r.Success? <==> CityKey(city) in cache && |cache[CityKey(city)]| > 0)
    ensures rooms.Some? && |rooms.value| > 0 && !r.Success? ==> r == Failure(NoCodes(city))
    ensures r.Success? ==>
      r.value == SearchHotels(cache[CityKey(city)], checkIn, checkOut, rooms.value, nationality, transport)
  {
    DetailsFlow({"get"}, city, checkIn, checkOut, rooms, nationality, cache, transport)
  }

  /** The shared body: room check, cache read through a client with properties
      `members`, the empty-list check, then the search. */
  function DetailsFlow(
    members: set<string>, city: string, checkIn: string, checkOut: string, rooms: Option<seq<RawRoom>>,
    nationality: Option<string>, cache: map<string, seq<string>>,
    transport: (nat, Payload) -> ApiReply): Result<BatchSearch, DetailsError>
  {
    if rooms.None? || |rooms.value| == 0 then Failure(RoomsRequired)
    else match CacheGet(members, cache, CityKey(city))
      case Failure(e) => Failure(e)
      case Success(found) =>
        if found.None? || |found.value| == 0 then Failure(NoCodes(city))
        else Success(SearchHotels(found.value, checkIn, checkOut, rooms.value, nationality, transport))
  }

  /** The two room builders read the same room with opposite preferences: when a
      room carries both spellings of the adult count with different values of at
      least 1, the batch search sends the lower-case one and the single request
      the capitalised one; when only one spelling is set (to at least 1), both
      send it. */
  lemma OppositeAdultPreference(room: RawRoom)
    ensures TruthyNum(room.Adults) && TruthyNum(room.adults) && room.Adults.v >= 1 && room.adults.v >= 1 ==>
      NormalizeRoom(room).Adults == room.adults.v && TboService.ProcessRoom(room).Adults == room.Adults.v
    ensures TruthyNum(room.Adults) && !TruthyNum(room.adults) && room.Adults.v >= 1 ==>
      NormalizeRoom(room).Adults == TboService.ProcessRoom(room).Adults == room.Adults.v
    ensures !TruthyNum(room.Adults) && TruthyNum(room.adults) && room.adults.v >= 1 ==>
      NormalizeRoom(room).Adults == TboService.ProcessRoom(room).Adults == room.adults.v
  {
  }

  /** A room written in the validator's convention (`NoOfAdults` and no
      `Adults`/`adults`) is sent with one adult, whatever `NoOfAdults` says. */
  lemma ValidatorRoomsSendOneAdult(room: RawRoom)
    requires !TruthyNum(room.Adults) && !TruthyNum(room.adults)
    ensures NormalizeRoom(room).Adults == 1
  {
  }

  /** Rooms with no truthy adult count are all normalised to one adult. */
  lemma ValidatorRoomsNormaliseToOneAdult(rooms: seq<RawRoom>)
    requires forall i :: 0 <= i < |rooms| ==> !TruthyNum(rooms[i].Adults) && !TruthyNum(rooms[i].adults)
    ensures forall j :: 0 <= j < |rooms| ==> NormalizeRooms(rooms)[j].Adults == 1
  {
    forall j | 0 <= j < |rooms|
      ensures NormalizeRooms(rooms)[j].Adults == 1
    {
      ValidatorRoomsSendOneAdult(rooms[j]);
    }
  }

  /** A cached city with one room: the corrected lookup runs the search, the
      code as written throws before reading the cache. */
  lemma DetailsAsWrittenThrowsOnCachedCity()
    ensures var room := RawRoom(Value(2), Absent, Absent, Absent, Absent, Absent, Absent, Absent, Missing);
      var cache := map["hotels:delhi" := ["1001"]];
      var transport := (k: nat, p: Payload) => Rejected;
      && GetHotelDetailsByCity("Delhi", "2026-01-01", "2026-01-02", Some([room]), None, cache, transport).Success?
      && GetHotelDetailsByCityAsWritten("Delhi", "2026-01-01", "2026-01-02", Some([room]), None, cache, transport)
         == Failure(ClientNotCallable)
  {
    assert CityKey("Delhi") == "hotels:delhi";
  }
}

=== FILE: tbo_service.dfy ===
/** `services/tboService.js`: one availability request for a list of hotel
    codes — room processing, the request body, the response status check and
    the classification of transport errors. */
module TboService {
  import opened Wrappers
  import opened Js
  import opened Text
  import opened Shapes

  const NATIONALITY := "IN"
  const RESPONSE_TIME := 23

  /** Processes one room, preferring the capitalised field names:
      `Adults || adults || 1`, `Children || children || 0`, and `ChildrenAges`
      sent only when there are children and a non-empty age list. */
  function ProcessRoom(room: RawRoom): (p: PaxRoom)
    ensures p.Adults != 0
    ensures TruthyNum(room.Adults) ==> p.Adults == room.Adults.v
    ensures !TruthyNum(room.Adults) && TruthyNum(room.adults) ==> p.Adults == room.adults.v
    ensures !TruthyNum(room.Adults) && !TruthyNum(room.adults) ==> p.Adults == 1
    ensures TruthyNum(room.Children) ==> p.Children == room.Children.v
    ensures !TruthyNum(room.Children) && TruthyNum(room.children) ==> p.Children == room.children.v
    ensures !TruthyNum(room.Children) && !TruthyNum(room.children) ==> p.Children == 0
    ensures p.ChildrenAges.Some? <==>
      p.Children > 0 && |ListOr(room.ChildrenAges, ListOr(room.childrenAges, []))| > 0
    ensures p.ChildrenAges.Some? ==> p.ChildrenAges.value == ListOr(room.ChildrenAges, ListOr(room.childrenAges, []))
  {
    var adults := NumOr(room.Adults, NumOr(room.adults, 1));
    var children := NumOr(room.Children, NumOr(room.children, 0));
    var ages := ListOr(room.ChildrenAges, ListOr(room.childrenAges, []));
    PaxRoom(adults, children, if children > 0 && |ages| > 0 then Some(ages) else None)
  }

  function ProcessRooms(rooms: seq<RawRoom>): (r: seq<PaxRoom>)
    ensures |r| == |rooms|
    ensures forall i :: 0 <= i < |rooms| ==> r[i] == ProcessRoom(rooms[i])
  {
    seq(|rooms|, i requires 0 <= i < |rooms| => ProcessRoom(rooms[i]))
  }

  /** The request body: the codes comma-joined, nationality fixed to `IN`, the
      processed rooms, and every filter switched off. */
  function BuildPayload(codes: seq<string>, checkIn: string, checkOut: string, rooms: seq<RawRoom>): (p: Payload)
    ensures p.CheckIn == checkIn && p.CheckOut == checkOut
    ensures p.GuestNationality == NATIONALITY
    ensures p.PaxRooms == ProcessRooms(rooms)
    ensures p.Filters == NoFilters(Some(""))
    ensures p.ResponseTime == RESPONSE_TIME && p.IsDetailedResponse
  {
    Payload(checkIn, checkOut, Join(codes, ','), NATIONALITY, ProcessRooms(rooms),
            RESPONSE_TIME, true, NoFilters(Some("")))
  }

  /** When no code contains a comma, the request's `HotelCodes` field splits
      back into exactly the codes of the chunk, in order. */
  lemma HotelCodesRoundTrip(codes: seq<string>, checkIn: string, checkOut: string, rooms: seq<RawRoom>)
    requires |codes| > 0
    requires forall j :: 0 <= j < |codes| ==> Free(codes[j], ',')
    ensures Split(BuildPayload(codes, checkIn, checkOut, rooms).HotelCodes, ',') == codes
  {
    SplitJoin(codes, ',');
  }

  datatype StatusBlock = StatusBlock(Code: int, Description: Field<string>)

  /** A response body; `Status` is `None` when missing or falsy. */
  datatype Body = Body(Status: Option<StatusBlock>, HotelResult: Option<seq<HotelRecord>>)

  /** The `response` an HTTP-client error may carry; `data` is `None` when falsy. */
  datatype ErrorResponse = ErrorResponse(data: Option<Body>, statusText: Field<string>)

  /** What the HTTP client hands back for one request: a response whose `data`
      may be falsy (`None`), or a client error with an optional response, an
      optional error code and a message. */
  datatype Reply =
    | Responded(data: Option<Body>)
    | ClientError(response: Option<ErrorResponse>, code: Field<string>, message: string)

  /** The errors the request can throw. */
  datatype UpstreamError =
    | EmptyResponse
    | InvalidFormat
    | StatusError(description: Field<string>)
    | ApiError(detail: string)
    | Unreachable
    | Timeout
    | NetworkError(message: string)
  {
    function Message(): string {
      match this
      case EmptyResponse => "TBO API returned empty response"
      case InvalidFormat => "Invalid TBO API response format"
      case StatusError(d) => "TBO API error: " + Render(d)
      case ApiError(d) => "TBO API error: " + d
      case Unreachable => "Unable to connect to TBO API server"
      case Timeout => "TBO API request timeout"
      case NetworkError(m) => "Network error: " + m
    }
  }

  /** The detail of an error response: its status description, else its status
      text, else a fixed phrase — each only when non-empty. */
  function ErrorDetail(resp: ErrorResponse): (d: string)
    requires resp.data.Some?
    ensures d != ""
    ensures resp.data.value.Status.Some? && TruthyStr(resp.data.value.Status.value.Description) ==>
      d == resp.data.value.Status.value.Description.v
    ensures !(resp.data.value.Status.Some? && TruthyStr(resp.data.value.Status.value.Description)) && TruthyStr(resp.statusText) ==>
      d == resp.statusText.v
    ensures !(resp.data.value.Status.Some? && TruthyStr(resp.data.value.Status.value.Description)) && !TruthyStr(resp.statusText) ==>
      d == "Unknown API error"
  {
    var body := resp.data.value;
    if body.Status.Some? && TruthyStr(body.Status.value.Description) then body.Status.value.Description.v
    else if TruthyStr(resp.statusText) then resp.statusText.v
    else "Unknown API error"
  }

  /** Classification of HTTP-client errors, in priority order: a response with
      data, then refused or unresolved connections, then timeouts, then anything else. */
  function ClassifyClientError(response: Option<ErrorResponse>, code: Field<string>, message: string): (e: UpstreamError)
    ensures response.Some? && response.value.data.Some? <==> e.ApiError?
    ensures e.Unreachable? <==>
      !(response.Some? && response.value.data.Some?) && code in {Value("ECONNREFUSED"), Value("ENOTFOUND")}
    ensures e.Timeout? <==>
      !(response.Some? && response.value.data.Some?) && code == Value("ETIMEDOUT")
    ensures e.ApiError? ==> e.detail == ErrorDetail(response.value)
    ensures e.NetworkError? ==> e.message == message
    ensures !e.StatusError? && !e.EmptyResponse? && !e.InvalidFormat?
  {
    if response.Some? && response.value.data.Some? then ApiError(ErrorDetail(response.value))
    else if code == Value("ECONNREFUSED") || code == Value("ENOTFOUND") then Unreachable
    else if code == Value("ETIMEDOUT") then Timeout
    else NetworkError(message)
  }

  /** The response check: a body must be present, carry a `Status`, and report
      code 200 — any other code, 201 included, is an error quoting the
      description. Errors raised by this check are not client errors and reach
      the caller unchanged. */
  function CheckResponse(reply: Reply): (r: Result<Body, UpstreamError>)
    ensures r.Success? <==>
      reply.Responded? && reply.data.Some? && reply.data.value.Status.Some? && reply.data.value.Status.value.Code == 200
    ensures r.Success? ==> r.value == reply.data.value
    ensures reply.Responded? && reply.data.Some? && reply.data.value.Status.Some? && reply.data.value.Status.value.Code != 200 ==>
      r == Failure(StatusError(reply.data.value.Status.value.Description))
    ensures reply.ClientError? ==> r == Failure(ClassifyClientError(reply.response, reply.code, reply.message))
  {
    match reply
    case ClientError(resp, code, msg) => Failure(ClassifyClientError(resp, code, msg))
    case Responded(data) =>
      if data.None? then Failure(EmptyResponse)
      else if data.value.Status.None? then Failure(InvalidFormat)
      else if data.value.Status.value.Code != 200 then Failure(StatusError(data.value.Status.value.Description))
      else Success(data.value)
  }

  /** `searchHotelAvailability`: builds the request, hands it to `transport`
      (the HTTP POST, outside this model), and checks what comes back. */
  function SearchHotelAvailability(
    codes: seq<string>, checkIn: string, checkOut: string, rooms: seq<RawRoom>,
    transport: Payload -> Reply): (r: Result<Body, UpstreamError>)
    ensures var reply := transport(BuildPayload(codes, checkIn, checkOut, rooms));
      && (r.Success? <==> reply.Responded? && reply.data.Some? && reply.data.value.Status.Some?
                          && reply.data.value.Status.value.Code == 200)
      && (r.Success? ==> r.value == reply.data.value)
  {
    CheckResponse(transport(BuildPayload(codes, checkIn, checkOut, rooms)))
  }

  /** An upstream "no rooms" status (201) is reported as an error, never as an
      empty success. */
  lemma NoRoomsIsError(description: Field<string>, results: Option<seq<HotelRecord>>)
    ensures CheckResponse(Responded(Some(Body(Some(StatusBlock(201, description)), results))))
         == Failure(StatusError(description))
  {
  }
}

=== FILE: text.dfy ===
/** String operations the hotel-search code relies on: `toLowerCase`, `trim`,
    `Array.prototype.join(',')` and decimal rendering of indices. */
module Text {

  predicate IsUpper(c: char) {
    'A' <= c <= 'Z'
  }

  function LowerChar(c: char): (r: char)
    ensures !IsUpper(r)
    ensures !IsUpper(c) ==> r == c
  {
    if IsUpper(c) then (c as int + 32) as char else c
  }

  /** `String.prototype.toLowerCase`, restricted to the ASCII letters. */
  function ToLower(s: string): (r: string)
    ensures |r| == |s|
    ensures forall i :: 0 <= i < |s| ==> r[i] == LowerChar(s[i])
  {
    seq(|s|, i requires 0 <= i < |s| => LowerChar(s[i]))
  }

  /** Lower-casing is idempotent, so a key built from an already lower-cased
      name is the same key. */
  lemma ToLowerIdempotent(s: string)
    ensures ToLower(ToLower(s)) == ToLower(s)
  {
    var once := ToLower(s);
    var twice := ToLower(once);
    forall i | 0 <= i < |s|
      ensures twice[i] == once[i]
    {
      assert !IsUpper(once[i]);
    }
  }

  /** The characters `String.prototype.trim` removes: ECMAScript WhiteSpace and
      LineTerminator. */
  predicate IsSpace(c: char) {
    || c == ' ' || c == '\t' || c == '\n' || c == '\r'
    || c == '\U{0B}' || c == '\U{0C}' || c == '\U{A0}' || c == '\U{FEFF}'
    || c == '\U{1680}' || ('\U{2000}' <= c <= '\U{200A}')
    || c == '\U{2028}' || c == '\U{2029}' || c == '\U{202F}' || c == '\U{205F}'
    || c == '\U{3000}'
  }

  predicate Blank(s: string) {
    forall i :: 0 <= i < |s| ==> IsSpace(s[i])
  }

  function TrimStart(s: string): (r: string)
    ensures |r| <= |s| && r == s[|s| - |r|..]
    ensures forall i :: 0 <= i < |s| - |r| ==> IsSpace(s[i])
    ensures |r| > 0 ==> !IsSpace(r[0])
  {
    if |s| > 0 && IsSpace(s[0]) then TrimStart(s[1..]) else s
  }

  function TrimEnd(s: string): (r: string)
    ensures |r| <= |s| && r == s[..|r|]
    ensures forall i :: |r| <= i < |s| ==> IsSpace(s[i])
    ensures |r| > 0 ==> !IsSpace(r[|r| - 1])
  {
    if |s| > 0 && IsSpace(s[|s| - 1]) then TrimEnd(s[..|s| - 1]) else s
  }

  /** `String.prototype.trim`; `s.trim() === ''` holds exactly for the strings
      made only of white space. */
  function Trim(s: string): (r: string)
    ensures r == "" <==> Blank(s)
  {
    TrimEnd(TrimStart(s))
  }

  /** `parts.join(sep)` */
  function Join(parts: seq<string>, sep: char): (r: string)
  {
    if |parts| == 0 then ""
    else if |parts| == 1 then parts[0]
    else parts[0] + [sep] + Join(parts[1..], sep)
  }

  /** The first index of `sep` in `s`, or `|s|` when there is none. */
  function IndexOf(s: string, sep: char): (k: nat)
    ensures k <= |s|
    ensures forall i :: 0 <= i < k ==> s[i] != sep
    ensures k < |s| ==> s[k] == sep
  {
    if |s| == 0 || s[0] == sep then 0 else 1 + IndexOf(s[1..], sep)
  }

  /** `s.split(sep)`: the pieces between separators; the empty string is one empty piece. */
  function Split(s: string, sep: char): (r: seq<string>)
    ensures |r| > 0
    decreases |s|
  {
    var k := IndexOf(s, sep);
    if k == |s| then [s] else [s[..k]] + Split(s[k + 1..], sep)
  }

  predicate Free(part: string, sep: char) {
    forall i :: 0 <= i < |part| ==> part[i] != sep
  }

  /** Joining codes with a separator none of them contains loses nothing:
      splitting the joined text gives the codes back. */
  lemma {:induction false} SplitJoin(parts: seq<string>, sep: char)
    requires |parts| > 0
    requires forall j :: 0 <= j < |parts| ==> Free(parts[j], sep)
    ensures Split(Join(parts, sep), sep) == parts
    decreases |parts|
  {
    var s := Join(parts, sep);
    if |parts| == 1 {
      assert IndexOf(s, sep) == |s|;
    } else {
      var rest := Join(parts[1..], sep);
      assert s == parts[0] + [sep] + rest;
      var k := IndexOf(s, sep);
      assert forall i :: 0 <= i < |parts[0]| ==> s[i] == parts[0][i];
      assert s[|parts[0]|] == sep;
      assert k == |parts[0]|;
      assert s[..k] == parts[0];
      assert s[k + 1..] == rest;
      SplitJoin(parts[1..], sep);
    }
  }

  function DigitChar(d: nat): char
    requires d < 10
  {
    "0123456789"[d]
  }

  /** The decimal text of a natural number, as template literals render it. */
  function NatToString(n: nat): (r: string)
    ensures |r| > 0
  {
    if n < 10 then [DigitChar(n)] else NatToString(n / 10) + [DigitChar(n % 10)]
  }
}

=== FILE: validator.dfy ===
/** `utils/validator.js`: the search-parameter validator. Every check appends
    its error to one list; the parameters are valid exactly when the list stays
    empty. "Today" is a parameter instead of the clock. */
module Validator {
  import opened Wrappers
  import opened Js
  import opened Text
  import opened Shapes
  import opened Dates

  datatype SearchParams = SearchParams(
    cityName: Typed<string>, checkInDate: Option<string>, checkOutDate: Option<string>,
    rooms: Typed<seq<RawRoom>>)

  /** One validation error; room and child numbers are 0-based here and
      printed 1-based. */
  datatype ValidationError =
    | CityRequired
    | CheckInRequired | CheckInFormat | CheckInPast
    | CheckOutRequired | CheckOutFormat | CheckOutNotAfter
    | RoomsRequired
    | RoomAdults(room: nat)
    | RoomChildAgesRequired(room: nat)
    | RoomChildAgesCount(room: nat)
    | RoomChildAge(room: nat, child: nat)
  {
    function Message(): string {
      match this
      case CityRequired => "City name is required"
      case CheckInRequired => "Check-in date is required"
      case CheckInFormat => "Invalid check-in date format. Use YYYY-MM-DD"
      case CheckInPast => "Check-in date cannot be in the past"
      case CheckOutRequired => "Check-out date is required"
      case CheckOutFormat => "Invalid check-out date format. Use YYYY-MM-DD"
      case CheckOutNotAfter => "Check-out date must be after check-in date"
      case RoomsRequired => "At least one room is required"
      case RoomAdults(i) => "Room " + NatToString(i + 1) + ": At least one adult is required"
      case RoomChildAgesRequired(i) => "Room " + NatToString(i + 1) + ": Child ages are required when children are present"
      case RoomChildAgesCount(i) => "Room " + NatToString(i + 1) + ": Number of child ages must match number of children"
      case RoomChildAge(i, j) =>
        "Room " + NatToString(i + 1) + ": Child " + NatToString(j + 1) + " age must be between 0 and 17"
    }

    predicate IsRoomError() {
      RoomAdults? || RoomChildAgesRequired? || RoomChildAgesCount? || RoomChildAge?
    }

    /** Which check produces the error: city, check-in, check-out, room list, rooms. */
    function Stage(): nat {
      match this
      case CityRequired => 0
      case CheckInRequired | CheckInFormat | CheckInPast => 1
      case CheckOutRequired | CheckOutFormat | CheckOutNotAfter => 2
      case RoomsRequired => 3
      case _ => 4
    }

    /** The room a room error is about; 0 for the other errors. */
    function RoomOf(): nat {
      if IsRoomError() then room else 0
    }

    /** The position of the error within its check: the order of the branches
        of a date chain, and for a room adults, missing ages, count, then child
        `j` at `3 + j`. */
    function Rank(): nat {
      match this
      case CheckInFormat | CheckOutFormat | RoomChildAgesRequired(_) => 1
      case CheckInPast | CheckOutNotAfter | RoomChildAgesCount(_) => 2
      case RoomChildAge(_, j) => 3 + j
      case _ => 0
    }

    /** The order in which the validator's checks can append errors. */
    predicate Precedes(other: ValidationError) {
      || Stage() < other.Stage()
      || (Stage() == other.Stage() && RoomOf() < other.RoomOf())
      || (Stage() == other.Stage() && RoomOf() == other.RoomOf() && Rank() < other.Rank())
    }
  }

  /** Strictly in the order the checks append their errors, so no error twice. */
  predicate InCheckOrder(errors: seq<ValidationError>) {
    forall a, b :: 0 <= a < b < |errors| ==> errors[a].Precedes(errors[b])
  }

  /** Two ordered runs whose every pair is in order concatenate to an ordered run. */
  lemma InCheckOrderAppend(x: seq<ValidationError>, y: seq<ValidationError>)
    requires InCheckOrder(x) && InCheckOrder(y)
    requires forall d, e :: d in x && e in y ==> d.Precedes(e)
    ensures InCheckOrder(x + y)
  {
    forall a, b | 0 <= a < b < |x + y|
      ensures (x + y)[a].Precedes((x + y)[b])
    {
      if b < |x| {
        assert (x + y)[a] == x[a] && (x + y)[b] == x[b];
      } else if a >= |x| {
        assert (x + y)[a] == y[a - |x|] && (x + y)[b] == y[b - |x|];
      } else {
        assert (x + y)[a] == x[a] && (x + y)[b] == y[b - |x|];
        assert x[a] in x && y[b - |x|] in y;
      }
    }
  }

  /** The first error of a list in check order precedes every other one. */
  lemma HeadIsLeast(x: seq<ValidationError>, e: ValidationError)
    requires InCheckOrder(x) && |x| > 0
    ensures e in x ==> e == x[0] || x[0].Precedes(e)
    ensures e in x[1..] <==> e in x && e != x[0]
  {
    if e in x {
      var i :| 0 <= i < |x| && x[i] == e;
      if i > 0 {
        assert x[0].Precedes(x[i]);
        assert x[1..][i - 1] == e;
      }
    }
  }

  /** Lists with the same members are both empty or both non-empty. */
  lemma SameMembersSameEmptiness(x: seq<ValidationError>, y: seq<ValidationError>)
    requires forall e :: e in x <==> e in y
    ensures |x| == 0 <==> |y| == 0
  {
    if |x| > 0 {
      assert x[0] in y;
    }
    if |y| > 0 {
      assert y[0] in x;
    }
  }

  /** The check order fixes a list by its members: two lists in check order
      that hold the same errors are the same list. */
  lemma {:induction false} OrderFixesList(x: seq<ValidationError>, y: seq<ValidationError>)
    requires InCheckOrder(x) && InCheckOrder(y)
    requires forall e :: e in x <==> e in y
    ensures x == y
    decreases |x|
  {
    SameMembersSameEmptiness(x, y);
    if |x| > 0 {
      assert x[0] in y;
      HeadIsLeast(x, y[0]);
      HeadIsLeast(y, x[0]);
      assert x[0] == y[0];
      forall e
        ensures e in x[1..] <==> e in y[1..]
      {
        HeadIsLeast(x, e);
        HeadIsLeast(y, e);
      }
      OrderFixesList(x[1..], y[1..]);
      assert x == [x[0]] + x[1..] && y == [y[0]] + y[1..];
    }
  }

  datatype ValidationResult = ValidationResult(isValid: bool, errors: seq<ValidationError>)

  /** A child's error, if any, comes before the errors of the later children. */
  lemma AgesInOrder(i: nat, from: nat, head: seq<ValidationError>, rest: seq<ValidationError>)
    requires head == [] || head == [RoomChildAge(i, from)]
    requires forall e :: e in rest ==> e.RoomChildAge? && e.room == i && from < e.child
    requires InCheckOrder(rest)
    ensures InCheckOrder(head + rest)
  {
    InCheckOrderAppend(head, rest);
  }

  /** Within one room: adults, then the missing-ages or count error, then the ages. */
  lemma RoomInOrder(i: nat, adults: seq<ValidationError>, middle: seq<ValidationError>, ages: seq<ValidationError>)
    requires adults == [] || adults == [RoomAdults(i)]
    requires middle == [] || middle == [RoomChildAgesRequired(i)] || middle == [RoomChildAgesCount(i)]
    requires forall e :: e in ages ==> e.RoomChildAge? && e.room == i
    requires InCheckOrder(ages)
    ensures InCheckOrder(adults + middle + ages)
  {
    InCheckOrderAppend(adults, middle);
    InCheckOrderAppend(adults + middle, ages);
  }

  /** One room's errors come before those of every later room. */
  lemma RoomsInOrder(from: nat, here: seq<ValidationError>, later: seq<ValidationError>)
    requires forall e :: e in here ==> e.IsRoomError() && e.room == from
    requires forall e :: e in later ==> e.IsRoomError() && from < e.room
    requires InCheckOrder(here) && InCheckOrder(later)
    ensures InCheckOrder(here + later)
  {
    InCheckOrderAppend(here, later);
  }

  /** The four checks' errors in check order: city, check-in, check-out, rooms. */
  lemma StagesInOrder(
    city: seq<ValidationError>, checkIn: seq<ValidationError>, checkOut: seq<ValidationError>,
    rooms: seq<ValidationError>)
    requires city == [] || city == [CityRequired]
    requires |checkIn| <= 1 && forall e :: e in checkIn ==> e.CheckInRequired? || e.CheckInFormat? || e.CheckInPast?
    requires |checkOut| <= 1 &&
      forall e :: e in checkOut ==> e.CheckOutRequired? || e.CheckOutFormat? || e.CheckOutNotAfter?
    requires InCheckOrder(rooms) && forall e :: e in rooms ==> e.IsRoomError() || e.RoomsRequired?
    ensures InCheckOrder(city + checkIn + checkOut + rooms)
  {
    InCheckOrderAppend(city, checkIn);
    InCheckOrderAppend(city + checkIn, checkOut);
    InCheckOrderAppend(city + checkIn + checkOut, rooms);
  }

  /** A missing, non-string or white-space-only city. */
  predicate CityInvalid(city: Typed<string>) {
    !city.Is? || Trim(city.v) == ""
  }

  predicate Falsy(s: Option<string>) {
    s.None? || s.value == ""
  }

  function DateOf(s: Option<string>): Date
    requires IsValidDate(s)
  {
    Parse(s.value).value
  }

  /** `!room.NoOfAdults || room.NoOfAdults < 1` */
  predicate AdultsInvalid(room: RawRoom) {
    !TruthyNum(room.NoOfAdults) || room.NoOfAdults.v < 1
  }

  /** `room.NoOfChild > 0` */
  predicate HasChildren(room: RawRoom) {
    room.NoOfChild.Value? && room.NoOfChild.v > 0
  }

  predicate AgeOutOfRange(age: int) {
    age < 0 || age > 17
  }

  /** The city check. */
  function CityErrors(city: Typed<string>): (r: seq<ValidationError>)
    ensures r == [] || r == [CityRequired]
    ensures r == [] <==> city.Is? && !Blank(city.v)
  {
    if !city.Is? || Trim(city.v) == "" then [CityRequired] else []
  }

  /** The check-in chain: missing, else malformed, else in the past. */
  function CheckInErrors(checkIn: Option<string>, today: Date): (r: seq<ValidationError>)
    ensures |r| <= 1
    ensures forall e :: e in r ==> e.CheckInRequired? || e.CheckInFormat? || e.CheckInPast?
    ensures r == [CheckInRequired] <==> Falsy(checkIn)
    ensures r == [CheckInFormat] <==> !Falsy(checkIn) && !IsValidDate(checkIn)
    ensures r == [CheckInPast] <==> IsValidDate(checkIn) && Before(DateOf(checkIn), today)
    ensures r == [] <==> !Falsy(checkIn) && IsValidDate(checkIn) && !Before(DateOf(checkIn), today)
  {
    if Falsy(checkIn) then [CheckInRequired]
    else if !IsValidDate(checkIn) then [CheckInFormat]
    else if Before(DateOf(checkIn), today) then [CheckInPast]
    else []
  }

  /** The check-out chain: missing, else malformed, else not after a valid check-in. */
  function CheckOutErrors(checkIn: Option<string>, checkOut: Option<string>): (r: seq<ValidationError>)
    ensures |r| <= 1
    ensures forall e :: e in r ==> e.CheckOutRequired? || e.CheckOutFormat? || e.CheckOutNotAfter?
    ensures r == [CheckOutRequired] <==> Falsy(checkOut)
    ensures r == [CheckOutFormat] <==> !Falsy(checkOut) && !IsValidDate(checkOut)
    ensures r == [CheckOutNotAfter] <==>
      IsValidDate(checkIn) && IsValidDate(checkOut) && !Before(DateOf(checkIn), DateOf(checkOut))
    ensures r == [] <==>
      !Falsy(checkOut) && IsValidDate(checkOut)
      && !(IsValidDate(checkIn) && !Before(DateOf(checkIn), DateOf(checkOut)))
  {
    if Falsy(checkOut) then [CheckOutRequired]
    else if !IsValidDate(checkOut) then [CheckOutFormat]
    else if IsValidDate(checkIn) && !Before(DateOf(checkIn), DateOf(checkOut)) then [CheckOutNotAfter]
    else []
  }

  /** One error per child age outside 0..17, for room `i`, from child `from` on. */
  function AgeErrors(i: nat, ages: seq<int>, from: nat): (r: seq<ValidationError>)
    requires from <= |ages|
    ensures forall e :: e in r ==> e.RoomChildAge? && e.room == i && from <= e.child
    ensures forall j: nat :: RoomChildAge(i, j) in r <==> from <= j < |ages| && AgeOutOfRange(ages[j])
    ensures InCheckOrder(r)
    decreases |ages| - from
  {
    if from == |ages| then []
    else
      var head := if AgeOutOfRange(ages[from]) then [RoomChildAge(i, from)] else [];
      var rest := AgeErrors(i, ages, from + 1);
      AgesInOrder(i, from, head, rest);
      head + rest
  }

  /** The checks of room `i`: adults; then, when children are announced, either
      the missing-ages error alone, or the count check and one check per age. */
  function RoomErrors(room: RawRoom, i: nat): (r: seq<ValidationError>)
    ensures forall e :: e in r ==> e.IsRoomError() && e.room == i
    ensures RoomAdults(i) in r <==> AdultsInvalid(room)
    ensures RoomChildAgesRequired(i) in r <==> HasChildren(room) && !room.ChildAge.Is?
    ensures RoomChildAgesCount(i) in r <==>
      HasChildren(room) && room.ChildAge.Is? && |room.ChildAge.v| != room.NoOfChild.v
    ensures forall j: nat :: RoomChildAge(i, j) in r <==>
      HasChildren(room) && room.ChildAge.Is? && 0 <= j < |room.ChildAge.v| && AgeOutOfRange(room.ChildAge.v[j])
    ensures InCheckOrder(r)
  {
    var adults := if AdultsInvalid(room) then [RoomAdults(i)] else [];
    if !HasChildren(room) then adults
    else
      var middle :=
        if !room.ChildAge.Is? then [RoomChildAgesRequired(i)]
        else if |room.ChildAge.v| != room.NoOfChild.v then [RoomChildAgesCount(i)]
        else [];
      var each := if room.ChildAge.Is? then AgeErrors(i, room.ChildAge.v, 0) else [];
      RoomInOrder(i, adults, middle, each);
      adults + middle + each
  }

  /** The per-room loop from room `from` on. */
  function AllRoomErrors(rooms: seq<RawRoom>, from: nat): (r: seq<ValidationError>)
    requires from <= |rooms|
    ensures forall e :: e in r ==> e.IsRoomError() && from <= e.room < |rooms|
    ensures forall i: nat :: RoomAdults(i) in r <==> from <= i < |rooms| && AdultsInvalid(rooms[i])
    ensures forall i: nat :: RoomChildAgesRequired(i) in r <==>
      from <= i < |rooms| && HasChildren(rooms[i]) && !rooms[i].ChildAge.Is?
    ensures forall i: nat :: RoomChildAgesCount(i) in r <==>
      from <= i < |rooms| && HasChildren(rooms[i]) && rooms[i].ChildAge.Is?
      && |rooms[i].ChildAge.v| != rooms[i].NoOfChild.v
    ensures forall i: nat, j: nat :: RoomChildAge(i, j) in r <==>
      from <= i < |rooms| && HasChildren(rooms[i]) && rooms[i].ChildAge.Is?
      && 0 <= j < |rooms[i].ChildAge.v| && AgeOutOfRange(rooms[i].ChildAge.v[j])
    ensures InCheckOrder(r)
    decreases |rooms| - from
  {
    if from == |rooms| then []
    else
      var here := RoomErrors(rooms[from], from);
      var later := AllRoomErrors(rooms, from + 1);
      RoomsInOrder(from, here, later);
      here + later
  }

  /** The rooms check: a missing, non-array or empty list is one error and no
      room is examined; otherwise every room's errors in room order. */
  function RoomsErrors(rooms: Typed<seq<RawRoom>>): (r: seq<ValidationError>)
    ensures !rooms.Is? || |rooms.v| == 0 ==> r == [RoomsRequired]
    ensures rooms.Is? && |rooms.v| > 0 ==> r == AllRoomErrors(rooms.v, 0)
    ensures InCheckOrder(r)
  {
    if !rooms.Is? || |rooms.v| == 0 then [RoomsRequired] else AllRoomErrors(rooms.v, 0)
  }

  /** Every error of the rooms check is a room error or the list error. */
  lemma RoomsErrorsKinds(rooms: Typed<seq<RawRoom>>)
    ensures forall e :: e in RoomsErrors(rooms) ==> e.IsRoomError() || e == RoomsRequired
  {
  }

  /** `validateSearchParams`: the errors of the city, check-in, check-out and
      rooms checks, in that order; valid exactly when there are none. */
  function ValidateSearchParams(params: SearchParams, today: Date): (v: ValidationResult)
    ensures v.isValid <==> |v.errors| == 0
    ensures forall e :: e in v.errors <==>
      || e in CityErrors(params.cityName)
      || e in CheckInErrors(params.checkInDate, today)
      || e in CheckOutErrors(params.checkInDate, params.checkOutDate)
      || e in RoomsErrors(params.rooms)
    ensures InCheckOrder(v.errors)
  {
    var city := CityErrors(params.cityName);
    var checkIn := CheckInErrors(params.checkInDate, today);
    var checkOut := CheckOutErrors(params.checkInDate, params.checkOutDate);
    var rooms := RoomsErrors(params.rooms);
    RoomsErrorsKinds(params.rooms);
    StagesInOrder(city, checkIn, checkOut, rooms);
    var errors := city + checkIn + checkOut + rooms;
    ValidationResult(|errors| == 0, errors)
  }

  /** The errors of the city and date checks, which come before the room errors. */
  function FieldErrors(params: SearchParams, today: Date): seq<ValidationError> {
    CityErrors(params.cityName)
      + CheckInErrors(params.checkInDate, today)
      + CheckOutErrors(params.checkInDate, params.checkOutDate)
  }

  /** The city and date checks never produce a room error or the room-list error. */
  lemma FieldErrorsKinds(params: SearchParams, today: Date)
    ensures forall e :: e in FieldErrors(params, today) ==> !e.IsRoomError() && !e.RoomsRequired?
  {
  }

  /** The city gets its error exactly when it is missing, not a string or blank. */
  lemma CityRule(params: SearchParams, today: Date)
    ensures CityRequired in ValidateSearchParams(params, today).errors <==> CityInvalid(params.cityName)
  {
    assert CityRequired !in RoomsErrors(params.rooms) by {
      RoomsErrorsKinds(params.rooms);
    }
    assert CityRequired !in CheckInErrors(params.checkInDate, today);
    assert CityRequired !in CheckOutErrors(params.checkInDate, params.checkOutDate);
  }

  /** A check-in error is in the result exactly when the check-in chain produced it. */
  lemma CheckInFromItsCheck(params: SearchParams, today: Date, e: ValidationError)
    requires e.CheckInRequired? || e.CheckInFormat? || e.CheckInPast?
    ensures e in ValidateSearchParams(params, today).errors <==> e in CheckInErrors(params.checkInDate, today)
  {
    assert e !in RoomsErrors(params.rooms) by {
      RoomsErrorsKinds(params.rooms);
    }
    assert e !in CityErrors(params.cityName);
    assert e !in CheckOutErrors(params.checkInDate, params.checkOutDate);
  }

  /** A check-out error is in the result exactly when the check-out chain produced it. */
  lemma CheckOutFromItsCheck(params: SearchParams, today: Date, e: ValidationError)
    requires e.CheckOutRequired? || e.CheckOutFormat? || e.CheckOutNotAfter?
    ensures e in ValidateSearchParams(params, today).errors <==>
      e in CheckOutErrors(params.checkInDate, params.checkOutDate)
  {
    assert e !in RoomsErrors(params.rooms) by {
      RoomsErrorsKinds(params.rooms);
    }
    assert e !in CityErrors(params.cityName);
    assert e !in CheckInErrors(params.checkInDate, today);
  }

  /** A room error is in the result exactly when the rooms check produced it. */
  lemma RoomErrorFromItsCheck(params: SearchParams, today: Date, e: ValidationError)
    requires e.IsRoomError()
    ensures e in ValidateSearchParams(params, today).errors <==> e in RoomsErrors(params.rooms)
  {
    assert e !in CityErrors(params.cityName);
    assert e !in CheckInErrors(params.checkInDate, today);
    assert e !in CheckOutErrors(params.checkInDate, params.checkOutDate);
  }

  /** Check-in is judged in the order missing, malformed, in the past. */
  lemma CheckInRule(params: SearchParams, today: Date)
    ensures var errors := ValidateSearchParams(params, today).errors;
      && (CheckInRequired in errors <==> Falsy(params.checkInDate))
      && (CheckInFormat in errors <==> !Falsy(params.checkInDate) && !IsValidDate(params.checkInDate))
      && (CheckInPast in errors <==>
            IsValidDate(params.checkInDate) && Before(DateOf(params.checkInDate), today))
  {
    CheckInFromItsCheck(params, today, CheckInRequired);
    CheckInFromItsCheck(params, today, CheckInFormat);
    CheckInFromItsCheck(params, today, CheckInPast);
  }

  /** Check-out is judged in the order missing, malformed, not after a valid check-in. */
  lemma CheckOutRule(params: SearchParams, today: Date)
    ensures var errors := ValidateSearchParams(params, today).errors;
      && (CheckOutRequired in errors <==> Falsy(params.checkOutDate))
      && (CheckOutFormat in errors <==> !Falsy(params.checkOutDate) && !IsValidDate(params.checkOutDate))
      && (CheckOutNotAfter in errors <==>
            IsValidDate(params.checkInDate) && IsValidDate(params.checkOutDate)
            && !Before(DateOf(params.checkInDate), DateOf(params.checkOutDate)))
  {
    CheckOutFromItsCheck(params, today, CheckOutRequired);
    CheckOutFromItsCheck(params, today, CheckOutFormat);
    CheckOutFromItsCheck(params, today, CheckOutNotAfter);
  }

  /** A missing, non-array or empty room list is one error and no room is examined. */
  lemma RoomsRequiredRule(params: SearchParams, today: Date)
    ensures var errors := ValidateSearchParams(params, today).errors;
      && (RoomsRequired in errors <==> !params.rooms.Is? || |params.rooms.v| == 0)
      && (RoomsRequired in errors ==> forall e :: e in errors ==> !e.IsRoomError())
  {
    var errors := ValidateSearchParams(params, today).errors;
    assert errors == FieldErrors(params, today) + RoomsErrors(params.rooms);
    FieldErrorsKinds(params, today);
    RoomsErrorsKinds(params.rooms);
    if !params.rooms.Is? || |params.rooms.v| == 0 {
      assert RoomsErrors(params.rooms) == [RoomsRequired];
    }
  }

  /** Each room gets its adults error and its per-age errors exactly when it breaks the rule. */
  lemma PerRoomRule(params: SearchParams, today: Date)
    requires params.rooms.Is?
    ensures var errors := ValidateSearchParams(params, today).errors;
      var rooms := params.rooms.v;
      && (forall i: nat :: RoomAdults(i) in errors <==> i < |rooms| && AdultsInvalid(rooms[i]))
      && (forall i: nat, j: nat :: RoomChildAge(i, j) in errors <==>
            i < |rooms| && HasChildren(rooms[i]) && rooms[i].ChildAge.Is?
            && j < |rooms[i].ChildAge.v| && AgeOutOfRange(rooms[i].ChildAge.v[j]))
  {
    var errors := ValidateSearchParams(params, today).errors;
    var rooms := params.rooms.v;
    forall i: nat
      ensures RoomAdults(i) in errors <==> i < |rooms| && AdultsInvalid(rooms[i])
    {
      RoomErrorFromItsCheck(params, today, RoomAdults(i));
    }
    forall i: nat, j: nat
      ensures RoomChildAge(i, j) in errors <==>
        i < |rooms| && HasChildren(rooms[i]) && rooms[i].ChildAge.Is?
        && j < |rooms[i].ChildAge.v| && AgeOutOfRange(rooms[i].ChildAge.v[j])
    {
      RoomErrorFromItsCheck(params, today, RoomChildAge(i, j));
    }
  }

  /** The errors are fixed by which errors there are: any list in check order
      with the same members is the validator's list. */
  lemma ErrorsAreFixedByTheirMembers(params: SearchParams, today: Date, errors: seq<ValidationError>)
    requires InCheckOrder(errors)
    requires forall e :: e in errors <==> e in ValidateSearchParams(params, today).errors
    ensures errors == ValidateSearchParams(params, today).errors
  {
    OrderFixesList(errors, ValidateSearchParams(params, today).errors);
  }

  /** Valid parameters are all present: a city string, both dates and a room list. */
  lemma ValidParamsArePresent(params: SearchParams, today: Date)
    ensures ValidateSearchParams(params, today).isValid ==>
      && params.cityName.Is? && params.checkInDate.Some? && params.checkOutDate.Some?
      && params.rooms.Is? && |params.rooms.v| > 0
  {
    CityRule(params, today);
    CheckInRule(params, today);
    CheckOutRule(params, today);
    RoomsRequiredRule(params, today);
  }

  /** Valid parameters always describe a stay of at least one night. */
  lemma ValidMeansAtLeastOneNight(params: SearchParams, today: Date)
    ensures ValidateSearchParams(params, today).isValid ==> Nights(params.checkInDate, params.checkOutDate) >= 1
  {
    CheckOutRule(params, today);
  }
}

=== FILE: wrappers.dfy ===
/** Option and Result, the two failure-carrying shapes the model uses in place of
    JavaScript's `null`/`undefined` and thrown errors. */
module Wrappers {

  datatype Option<+T> = None | Some(value: T) {

    /** The wrapped value, or `default` when there is none. */
    function GetOr(default: T): T {
      match this
      case Some(v) => v
      case None => default
    }
  }

  /** `Failure` carries the error a JavaScript function would have thrown. */
  datatype Result<+T, +E> = Success(value: T) | Failure(error: E)
}
